=== FILE: README.md ===
# Student Activity Record — a verified model of its client-side logic

The Student Activity Record is a React front end with several screens:
- a login page with one tab per role;
- a student dashboard listing the student's extracurricular activities;
- a faculty dashboard for reviewing submissions;
- an institution admin dashboard;
- a navigation bar that switches between the dashboards;
- an evidence upload widget;
- two activity heatmaps.

All data is mock data: the dashboards' tables are module-level constants, the calendar heatmap generates its days while rendering, and the contribution heatmap takes its days as a property. Only the upload list, the selectors and the comment box are component state. The logic behind these screens is small. This project models it in Dafny and proves what the screens rely on.

- **Heatmaps** (`calendar_heatmap.dfy`, `github_heatmap.dfy`). Each heatmap lays a list of days out as week columns. The calendar heatmap's columns always have seven cells. The contribution heatmap's columns always have exactly seven cells when successive days fall on successive weekdays (`DailyWeeksHaveSevenCells`); otherwise a column can hold more.
  - The calendar heatmap closes a week when it is full. `GroupIntoWeeks` is a method with the source's loops and loop invariants.
  - The contribution heatmap closes a week after every Saturday and after the last day. `GroupByWeeks` is likewise a method proved against a specification.
  - Both are specified by functions, and the lemmas state week length, first-week padding, padding positions, and recovery of the days in order.
  - The weekday of a date is an input.
  - Both files also model the level-to-colour lookups, and the contribution heatmap models the count-to-level rule.
- **Evidence upload** (`file_upload.dfy`). The widget's state is the class `FileUploadForm`. Its `files` list is changed by five operations: append new uploads, tick the progress of an id, finalise an id, remove an id, and clear all. Each operation is a pure function on the list, with lemmas about what it changes and what it keeps. The Submit guard and the MIME-type icon are functions.
- **Dashboards** (`faculty_dashboard.dfy`, `student_dashboard.dfy`, `institution_admin_dashboard.dfy`). Each is a filter with an "all" wildcard, plus colour, icon and label switches with defaults.
  - On the faculty dashboard, a review decision only clears the comment box.
  - The student dashboard lower-cases only the activity's status before comparing it with the selector.
- **Routing** (`auth_landing_page.dfy`, `dashboard_navigation.dfy`).
  - Login maps a role to a path, and capitalises the role in the login card title.
  - The navigation bar looks up the dashboard for the current path, falling back to the first route. It also picks a colour, avatar, initials, name and e-mail for the selected role.
  - One cross-file fact is proved: login sends a student to "/student", but the student dashboard's route is "/". The navigation bar therefore shows the student dashboard there only through its fallback.

`common.dfy` holds the shared pieces:
- an `Option` type;
- `Filter`, which models `Array.prototype.filter`, with its lemmas (order-preserving subsequence, multiplicities, append, keep all, keep none);
- ASCII case mapping;
- the flattening `Concat` of a list of weeks.

The code has no server side: the review handlers only log and clear a text box, and every indicator is a literal.

## Model

| member | source | states |
|---|---|---|
| Common.Filter | components/faculty-dashboard.tsx:136-140 | `Array.prototype.filter`: never longer than the input, and everything kept is an input element that satisfies the predicate (order and multiplicities are stated by its lemmas) |
| Common.ToLower | components/student-dashboard.tsx:140 | `toLowerCase`: the same length, no upper-case letter left, every other character kept; ASCII letters only, as "## Left out" records |
| Common.UpperChar | components/dashboard-navigation.tsx:129 | `toUpperCase` on one character: no lower-case letter left, other characters kept, and a lower-case letter becomes the upper-case one that lower-cases back to it; ASCII letters only, as "## Left out" records |
| CalendarHeatmap.IntensityColor | components/calendar-heatmap.tsx:23-32 | levels 0..4 get the palette entry at that index; any other level, negative ones included, gets the level-0 colour |
| CalendarHeatmap.IntensityColorGray | components/calendar-heatmap.tsx:23-32 | the no-activity colour is used exactly for levels outside 1..4 |
| CalendarHeatmap.GroupIntoWeeks | components/calendar-heatmap.tsx:39-66 | every week has 7 cells; empty input gives no weeks; otherwise the weeks read row by row are d leading nulls, the days in order, then nulls up to a whole week, where d is the first day's weekday; there are ceil((d + n) / 7) weeks |
| CalendarHeatmap.StripPaddedDays | components/calendar-heatmap.tsx:52-57 | dropping the nulls from the grid gives back the input days in their order |
| CalendarHeatmap.FirstWeekPadding | components/calendar-heatmap.tsx:44-52 | the first week starts with exactly d nulls followed by the first day |
| CalendarHeatmap.GridCell | components/calendar-heatmap.tsx:43-66 | cell j of week k holds day 7k + j - d when that index is in range, and null otherwise |
| CalendarHeatmap.BlanksOnlyAtEdges | components/calendar-heatmap.tsx:47-49 | a null cell is either leading padding of the first week or trailing padding of the last week |
| GitHubHeatmap.MockLevel | components/github-style-heatmap.tsx:30-31 | the level is 0 exactly when the count is 0; it lies in 0..4 and is never 1 |
| GitHubHeatmap.MockLevelMonotone | components/github-style-heatmap.tsx:31 | a larger count never gives a lower level |
| GitHubHeatmap.LevelColor | components/github-style-heatmap.tsx:44-59 | levels 0..4 get their own shade in order; any other level gets the level-0 shade |
| GitHubHeatmap.GeneratedDaysNeverLevelOneShade | components/github-style-heatmap.tsx:30-31 | generated data never uses the level-1 shade |
| GitHubHeatmap.GroupByWeeks | components/github-style-heatmap.tsx:76-103 | one week per run of days cut after each Saturday and after the last day; week k is its run, with the first-week placeholders in front, padded with placeholders to at least 7 cells (a longer run keeps its length) |
| GitHubHeatmap.RunsCoverDays | components/github-style-heatmap.tsx:80-100 | the runs are non-empty and concatenate to the input days in order |
| GitHubHeatmap.RunsBreakAfterSaturdays | components/github-style-heatmap.tsx:92-99 | every run but the last ends with a Saturday, and no run holds a Saturday before its end |
| GitHubHeatmap.NoDaysNoWeeks | components/github-style-heatmap.tsx:76-103 | empty input gives no weeks |
| GitHubHeatmap.PadWeek | components/github-style-heatmap.tsx:94-96 | a week is padded to exactly 7 cells when shorter, otherwise kept; its cells stay in front and only placeholders are appended |
| GitHubHeatmap.PadWeekKeepsCells | components/github-style-heatmap.tsx:94-96 | padding keeps the week's cells in front, only appends placeholders, and yields at least 7 cells |
| GitHubHeatmap.FirstWeekLead | components/github-style-heatmap.tsx:83-90 | the first week opens with weekday-of-first-day placeholders (date "", count 0, level 0), then the first day |
| GitHubHeatmap.WeeksStripToDays | components/github-style-heatmap.tsx:80-102 | removing the placeholders from the concatenated weeks gives back the input days in order |
| GitHubHeatmap.DailySplit | components/github-style-heatmap.tsx:83-99 | for daily data, each run's weekdays step by one from its first day, and its leading placeholders number that first weekday |
| GitHubHeatmap.DailyWeeksHaveSevenCells | components/github-style-heatmap.tsx:83-99 | when successive days fall on successive weekdays, every week has exactly 7 cells |
| FileUpload.ActivityLabel | components/file-upload.tsx:70 | the selected category, or "Unassigned" when none is selected: the category shown is never empty and is the selected one whenever one is selected |
| FileUpload.NewEntries | components/file-upload.tsx:64-73 | one well-formed entry per picked file, carrying its drawn id and a non-empty category |
| FileUpload.NewEntriesFresh | components/file-upload.tsx:64-73 | one entry per picked file, in order, with the drawn id and the file's name and type, uploading at 0%, filed under the selected category or "Unassigned" when none is selected |
| FileUpload.TickEntry | components/file-upload.tsx:86-91 | a tick never lowers progress, caps it at 100, raises it by at most the increment, marks the entry completed exactly at 100, changes no other field and keeps the entry invariant |
| FileUpload.Ticked | components/file-upload.tsx:85-93 | each entry with the id advances by its own draw, at most that draw, never losing progress and staying at or below 100 when well formed; the list keeps its length and ids; entries with another id are unchanged |
| FileUpload.SharedIdEntriesAdvanceSeparately | components/file-upload.tsx:86-88 | two entries sharing an id can end one tick at different progress, since each gets its own draw |
| FileUpload.TickTouchesOnlyId | components/file-upload.tsx:85-93 | a tick keeps length and order, changes only entries with the id, never lowers a progress and keeps every entry well formed |
| FileUpload.Finalised | components/file-upload.tsx:100 | the list keeps its length and ids; entries with the id are at 100% and completed; the others are unchanged |
| FileUpload.FinaliseTouchesOnlyId | components/file-upload.tsx:97-102 | finalising sets the id's entries to 100% and completed, changes nothing else in them, and leaves every other entry untouched |
| FileUpload.Removed | components/file-upload.tsx:120 | never longer than before, and every remaining entry was in the list and has another id |
| FileUpload.RemoveKeepsOthers | components/file-upload.tsx:119-121 | removal drops every entry with the id and keeps every other entry, as often as it occurs and in order |
| FileUpload.RemoveAbsentIsNoop | components/file-upload.tsx:119-121 | removing an id no entry has leaves the list unchanged |
| FileUpload.RemoveIdempotent | components/file-upload.tsx:119-121 | removing the same id twice equals removing it once |
| FileUpload.CanSubmit | components/file-upload.tsx:237 | Submit is enabled only with at least one file, a category and a title (the converse is `SubmitGuard`) |
| FileUpload.SubmitGuard | components/file-upload.tsx:237 | Submit is enabled exactly when there is a file, a category and a title |
| FileUpload.SubmitAfterClearAndPick | components/file-upload.tsx:237-240 | after Clear All Submit is disabled; picking a file with category and title set enables it |
| FileUpload.Includes | components/file-upload.tsx:115 | `includes` holds exactly when the substring occurs at some position |
| FileUpload.FileIconFor | components/file-upload.tsx:113-117 | the image icon exactly for types starting "image/"; the PDF icon exactly for other types containing "pdf"; the generic icon otherwise |
| FileUpload.ImageTestComesFirst | components/file-upload.tsx:114-115 | "image/pdf" gets the image icon, "application/pdf" the PDF icon |
| FileUpload.FileUploadForm.constructor | components/file-upload.tsx:38-40 | the widget opens with no files, no category and no title |
| FileUpload.FileUploadForm.SelectActivity | components/file-upload.tsx:133 | the category selector sets the selected category |
| FileUpload.FileUploadForm.SetActivityTitle | components/file-upload.tsx:153 | the title input sets the title |
| FileUpload.FileUploadForm.HandleFiles | components/file-upload.tsx:64-81 | the new entries are appended after the existing ones, which stay unchanged and in order; the list invariant is kept |
| FileUpload.FileUploadForm.Tick | components/file-upload.tsx:84-95 | the list becomes its tick for the id, with one draw per entry; the invariant is kept |
| FileUpload.FileUploadForm.Finalise | components/file-upload.tsx:97-102 | the list becomes its finalisation for the id; the invariant is kept |
| FileUpload.FileUploadForm.RemoveFile | components/file-upload.tsx:119-121 | the list becomes its removal of the id; the invariant is kept |
| FileUpload.FileUploadForm.ClearAll | components/file-upload.tsx:240 | the list is emptied and Submit becomes disabled |
| FacultyDashboard.FilteredSubmissions | components/faculty-dashboard.tsx:136-140 | never longer than the submissions, and every listed submission is one of them whose program and category match the selectors or the selectors are "all" |
| FacultyDashboard.AllSelectorsListEverything | components/faculty-dashboard.tsx:136-140 | with both selectors on "all" every submission is listed |
| FacultyDashboard.FilterKeepsExactlyMatches | components/faculty-dashboard.tsx:136-140 | listed submissions match the program and category exactly unless the selector is "all"; every match is listed as often as it occurs; order is kept |
| FacultyDashboard.ComputerScienceListing | components/faculty-dashboard.tsx:29-78 | on the dashboard's data, "Computer Science" lists submissions 1 and 4 |
| FacultyDashboard.StatusColorOf | components/faculty-dashboard.tsx:104-115 | gray exactly for statuses whose lower-cased form is not approved, pending or rejected |
| FacultyDashboard.StatusColorIgnoresCase | components/faculty-dashboard.tsx:105 | a status and its lower-cased form get the same colour |
| FacultyDashboard.FlagColorOf | components/faculty-dashboard.tsx:117-128 | gray exactly for flags other than duplicate, missing_evidence and verified |
| FacultyDashboard.FlagColorIsCaseSensitive | components/faculty-dashboard.tsx:117-128 | "Duplicate" falls to the default while "duplicate" is red |
| FacultyDashboard.FlagLabel | components/faculty-dashboard.tsx:337 | same length as the flag; exactly the first underscore becomes a space |
| FacultyDashboard.FlagLabelWithoutUnderscore | components/faculty-dashboard.tsx:337 | a flag without underscore is shown unchanged |
| FacultyDashboard.FlagLabelKeepsLaterUnderscores | components/faculty-dashboard.tsx:337 | any underscore after the first stays |
| FacultyDashboard.FlagLabelAtFirstUnderscore | components/faculty-dashboard.tsx:337 | before + "_" + after, with no underscore in before, is shown as before + " " + after |
| FacultyDashboard.FacultyReviewState.constructor | components/faculty-dashboard.tsx:131-134 | both selectors start on "all" and the comment is empty |
| FacultyDashboard.FacultyReviewState.SetComment | components/faculty-dashboard.tsx:402 | the comment box holds the typed text |
| FacultyDashboard.FacultyReviewState.Decide | components/faculty-dashboard.tsx:142-155 | approve, reject and request rework clear the comment and leave the listed submissions unchanged |
| StudentDashboard.FilteredActivities | components/student-dashboard.tsx:138-142 | never longer than the activities, and every listed activity is one of them with the selected category and a lower-cased status equal to the selected status, each unless that selector is "all" |
| StudentDashboard.AllSelectorsListEverything | components/student-dashboard.tsx:138-142 | with both selectors on "all" every activity is listed |
| StudentDashboard.FilterKeepsExactlyMatches | components/student-dashboard.tsx:138-142 | listed activities match the category exactly and, lower-cased, the status selector; every match is listed as often as it occurs; order is kept |
| StudentDashboard.CapitalisedStatusMatchesLowerSelector | components/student-dashboard.tsx:140 | an "Approved" activity is listed under the selector "approved" |
| StudentDashboard.UpperCaseSelectorListsNothing | components/student-dashboard.tsx:140 | a status selector other than "all" containing an upper-case letter lists nothing |
| StudentDashboard.StatusColorOf | components/student-dashboard.tsx:102-115 | gray exactly for statuses whose lower-cased form is not approved, pending or rejected, so "draft" looks like an unknown status |
| StudentDashboard.StatusColorIgnoresCase | components/student-dashboard.tsx:103 | a status and its lower-cased form get the same colour |
| StudentDashboard.StatusIconOf | components/student-dashboard.tsx:117-130 | the alert icon exactly for statuses whose lower-cased form is not approved, pending, draft or rejected |
| StudentDashboard.StatusIconIgnoresCase | components/student-dashboard.tsx:118 | a status and its lower-cased form get the same icon |
| StudentDashboard.MockStatusesHaveIcons | components/student-dashboard.tsx:117-130 | the dashboard's capitalised statuses get the check, clock, edit and x icons |
| InstitutionAdminDashboard.FilteredDepartments | components/institution-admin-dashboard.tsx:116-118 | never longer than the table, and every listed row is one of its rows named like the selected department, unless that is "all" |
| InstitutionAdminDashboard.AllDepartmentsListEverything | components/institution-admin-dashboard.tsx:116-118 | department "all" lists every department, whatever the campus and cohort |
| InstitutionAdminDashboard.InitialSelectionShowsAll | components/institution-admin-dashboard.tsx:111-118 | with the initial selection all four departments are shown |
| InstitutionAdminDashboard.FilterKeepsExactlyMatches | components/institution-admin-dashboard.tsx:116-117 | otherwise exactly the unmodified rows named like the selection are listed, each as often as it occurs, in order |
| InstitutionAdminDashboard.CampusAndCohortIgnored | components/institution-admin-dashboard.tsx:111-118 | two selections with the same department list the same rows |
| InstitutionAdminDashboard.MechanicalListing | components/institution-admin-dashboard.tsx:25-54 | selecting "Mechanical" shows only its row |
| AuthLandingPage.LoginTarget | components/auth-landing-page.tsx:16-29 | a path exactly for student, faculty and admin, and it is "/" + role; any other role navigates nowhere |
| AuthLandingPage.InitialRoleLogsIn | components/auth-landing-page.tsx:13 | the page opens on the student tab, which logs in to "/student" |
| AuthLandingPage.LoginIsCaseSensitive | components/auth-landing-page.tsx:18-28 | "Student" navigates nowhere |
| AuthLandingPage.Capitalize | components/auth-landing-page.tsx:115 | same length; the first character is upper-cased and the rest is unchanged; "" stays "" |
| AuthLandingPage.CapitalizeKeepsLetters | components/auth-landing-page.tsx:115 | capitalising never changes the lower-cased text |
| AuthLandingPage.CapitalizeIdempotent | components/auth-landing-page.tsx:115 | capitalising twice equals capitalising once |
| AuthLandingPage.RoleTitles | components/auth-landing-page.tsx:115 | the titles are "Student", "Faculty" and "Admin" |
| AuthLandingPage.EachRoleHasThreeFeatures | components/auth-landing-page.tsx:31-47 | one tab per role, each with exactly three features and a login path |
| DashboardNavigation.RouteHrefsDistinct | components/dashboard-navigation.tsx:19-41 | the route hrefs "/", "/faculty" and "/admin" are pairwise distinct |
| DashboardNavigation.FindRoute | components/dashboard-navigation.tsx:52 | `find` returns nothing exactly when no route has the path, otherwise the first route with that href |
| DashboardNavigation.CurrentDashboard | components/dashboard-navigation.tsx:51-53 | always one of the routes; the matching route when one matches; otherwise the first (student) route |
| DashboardNavigation.EachRouteSelectsItself | components/dashboard-navigation.tsx:19-53 | each route's href selects that route |
| DashboardNavigation.StudentLoginPathOnlyByFallback | components/dashboard-navigation.tsx:19-53 | login's "/student" matches no route and resolves to the student route only through the fallback |
| DashboardNavigation.OtherLoginPathsMatchRoutes | components/dashboard-navigation.tsx:27-53 | the faculty and admin login paths select their own routes by href |
| DashboardNavigation.InitialSelectedRole | components/dashboard-navigation.tsx:47-49 | the selected role starts as the given role, "student" when none is given |
| DashboardNavigation.RoleColorOf | components/dashboard-navigation.tsx:57-68 | gray exactly for roles other than student, faculty and admin |
| DashboardNavigation.RoleColorIdentifiesRole | components/dashboard-navigation.tsx:57-68 | different known roles get different colours |
| DashboardNavigation.RoleBadge | components/dashboard-navigation.tsx:129 | the badge has the role's length and letters with no lower-case letter left |
| DashboardNavigation.AvatarImage | components/dashboard-navigation.tsx:70-81 | never empty; unknown roles get the student picture |
| DashboardNavigation.ShownAvatar | components/dashboard-navigation.tsx:136 | the image requested is always the role's own avatar image, so the `"/placeholder.svg"` fallback never applies |
| DashboardNavigation.PlaceholderNeverShown | components/dashboard-navigation.tsx:136 | the "/placeholder.svg" fallback is never taken |
| DashboardNavigation.AvatarFallback | components/dashboard-navigation.tsx:83-94 | "U" exactly for unknown roles; two letters for the known ones |
| DashboardNavigation.FallbackIdentifiesRole | components/dashboard-navigation.tsx:83-94 | different known roles get different initials |
| DashboardNavigation.DisplayName | components/dashboard-navigation.tsx:145-149 | John Smith for student, Dr. Sarah Wilson for faculty, Admin User for any other role |
| DashboardNavigation.DisplayEmail | components/dashboard-navigation.tsx:152-156 | the e-mail follows the same three-way choice |
| DashboardNavigation.DefaultRoleIsStudent | components/dashboard-navigation.tsx:47-156 | with no role given the bar shows the student: blue badge, "ST", John Smith, the student picture |
| DashboardNavigation.UnknownRoleShownAsAdmin | components/dashboard-navigation.tsx:57-156 | an unknown role gets a gray badge and "U" but the admin's name and the student picture |

## Left out

- Rendering: JSX, Tailwind class strings and icons. Colours and icons are enumerations.
- Randomness (`Math.random`) becomes parameters:
  - upload ids are an input list;
  - the progress increments of a tick are an input list with one draw in [0, 30) per list position, since the map callback draws afresh for each matching entry;
  - the mock-data generators of both heatmaps are not modelled, beyond the count-to-level rule.
- Dates: `Date`, `getDay`, `toISOString` and the month labels. The weekday of each day is an input (`weekday` on a calendar day, a `weekdayOf` function on a date string). The time-zone dependence of `new Date(date).getDay()` is therefore not captured.
- Timers: `setInterval` and `setTimeout` are not modelled. A tick and the final completion are separate operations with no clock, so any interleaving of them is allowed.
- `formatFileSize` is not modelled: the size label of a picked file is an input. The function uses logarithms and `toFixed`, and indexes past its unit table at 1024⁴ bytes and above.
- The average-turnaround bar width on the admin dashboard is floating-point layout arithmetic and is not modelled.
- Drag and drop (`handleDrag`, `handleDrop`) is not modelled. A drop reaches `handleFiles` through a callback memoised with no dependencies, so it would use the first render's category. Only the file input path is modelled.
- `router.push`, `usePathname` and `console.log` are I/O. The login target is a returned option, the current path is a parameter, and the log lines of the review handlers are dropped.
- The upload widget's `description` field, the faculty dashboard's `selectedSubmission`, the student dashboard's upload modal flag and the admin dashboard's `selectedStudent` hold state that no modelled logic reads.
- The Submit button has no click handler, so only its enabled state is modelled.
- The contribution heatmap replaces empty `data` with generated mock data before grouping (line 42). `GroupByWeeks` models the grouping of whatever list it is given.
- FileUpload.TickEntry: progress is a real number, so floating-point rounding of `progress + Math.random() * 30` is not modelled. Completion therefore happens exactly when the sum reaches 100.
- GitHubHeatmap.WeeksStripToDays: requires that no input day equals the placeholder record (date "", count 0, level 0). Such a day could not be told apart from padding.
- Common.ToLower, Common.LowerChar and Common.UpperChar: ASCII letters only. JavaScript's full Unicode case mapping, which can change a string's length ("ß" upper-cases to "SS"), is not modelled.
- AuthLandingPage.Capitalize and DashboardNavigation.RoleBadge: their length-preserving contracts rest on the ASCII case mapping and hold in JavaScript only for ASCII text. The only roles the pages pass them are "student", "faculty" and "admin", which are ASCII.
- Mock data is modelled only where a lemma uses it as an example (the faculty submissions, the admin department table). The KPI literals, notifications, students and announcements are not modelled.

=== FILE: auth_landing_page.dfy ===
/** The login landing page: the role tabs, the features listed under each
    role, the capitalised role in the login card's title, and the path the
    login button navigates to. */
module AuthLandingPage {
  import opened Common

  /** The tab selected when the page opens. */
  const InitialActiveRole: string := "student"

  /** `handleLogin`: the path pushed onto the router for a role. The switch has
      no default branch, so any other role navigates nowhere. */
  function LoginTarget(role: string): (target: Option<string>)
    ensures target.Some? <==> role in {"student", "faculty", "admin"}
    ensures target.Some? ==> target.value == "/" + role
  {
    match role
    case "student" => Some("/student")
    case "faculty" => Some("/faculty")
    case "admin" => Some("/admin")
    case _ => None
  }

  /** The tab the page opens on logs in, to "/student". */
  lemma InitialRoleLogsIn()
    ensures LoginTarget(InitialActiveRole) == Some("/student")
  {
  }

  /** A role that differs from the three tab values only in case navigates nowhere. */
  lemma LoginIsCaseSensitive()
    ensures LoginTarget("Student") == None
  {
    assert "Student"[0] != "student"[0];
    assert "Student"[0] != "faculty"[0];
    assert "Student"[0] != "admin"[0];
  }

  // ---------------------------------------------------------------------------
  // Title capitalisation

  /** `role.charAt(0).toUpperCase() + role.slice(1)`: only the first character
      is upper-cased; the empty string stays empty. */
  function Capitalize(s: string): (r: string)
    ensures |r| == |s|
    ensures s != [] ==> r[0] == UpperChar(s[0]) && r[1..] == s[1..]
  {
    if s == [] then [] else [UpperChar(s[0])] + s[1..]
  }

  /** Capitalising changes no letter but the first, and only its case. */
  lemma CapitalizeKeepsLetters(s: string)
    ensures ToLower(Capitalize(s)) == ToLower(s)
  {
    if s != [] {
      LowerOfUpperChar(s[0]);
      assert ToLower(Capitalize(s))[0] == ToLower(s)[0];
    }
  }

  /** Capitalising an already capitalised title changes nothing. */
  lemma CapitalizeIdempotent(s: string)
    ensures Capitalize(Capitalize(s)) == Capitalize(s)
  {
  }

  /** The three titles: "Student", "Faculty" and "Admin". */
  lemma RoleTitles()
    ensures Capitalize("student") == "Student"
    ensures Capitalize("faculty") == "Faculty"
    ensures Capitalize("admin") == "Admin"
  {
  }

  // ---------------------------------------------------------------------------
  // roleFeatures

  datatype FeatureIcon = BookOpenIcon | AwardIcon | BarChartIcon | ShieldIcon | UsersIcon

  datatype Feature = Feature(icon: FeatureIcon, title: string, desc: string)

  /** The features listed under each role's tab. */
  const RoleFeatures: map<string, seq<Feature>> := map[
    "student" := [
      Feature(BookOpenIcon, "Activity Management", "Track and submit your extracurricular activities"),
      Feature(AwardIcon, "Portfolio Generation", "Generate professional portfolios automatically"),
      Feature(BarChartIcon, "Progress Tracking", "Monitor your academic and activity progress")
    ],
    "faculty" := [
      Feature(ShieldIcon, "Verification System", "Review and approve student submissions"),
      Feature(BarChartIcon, "Analytics Dashboard", "Generate reports and track department metrics"),
      Feature(UsersIcon, "Student Management", "Manage student activities and approvals")
    ],
    "admin" := [
      Feature(ShieldIcon, "System Administration", "Manage institutional settings and compliance"),
      Feature(BarChartIcon, "Institutional Reports", "Generate NAAC/IQAC compliance reports"),
      Feature(UsersIcon, "Department Analytics", "Compare performance across departments")
    ]
  ]

  /** There is one feature tab per role, each tab lists exactly three features,
      and every tab's role has a login target. */
  lemma EachRoleHasThreeFeatures()
    ensures RoleFeatures.Keys == {"student", "faculty", "admin"}
    ensures forall role :: role in RoleFeatures ==> |RoleFeatures[role]| == 3 && LoginTarget(role).Some?
  {
  }
}

=== FILE: calendar_heatmap.dfy ===
/** The yearly calendar heatmap: the intensity palette and the grouping of
    the days into seven-cell weeks, where `null` cells pad the first week up
    to the weekday of the first day and the last week up to seven cells. */
module CalendarHeatmap {
  import opened Common

  /** One day of heatmap data. `weekday` stands for `date.getDay()` of the
      day's date; the date itself is only shown in a tooltip. */
  datatype CalendarDay = CalendarDay(weekday: Weekday, count: int, level: int)

  /** A grid cell: a day, or `null` padding. */
  type Cell = Option<CalendarDay>

  // ---------------------------------------------------------------------------
  // Intensity colours

  datatype Swatch = Gray100 | Indigo200 | Indigo400 | Indigo600 | Indigo800

  /** The `colors` array, indexed by activity level. */
  const Palette: seq<Swatch> := [Gray100, Indigo200, Indigo400, Indigo600, Indigo800]

  /** The position of a colour in the palette. */
  function PaletteIndex(c: Swatch): nat
  {
    match c
    case Gray100 => 0
    case Indigo200 => 1
    case Indigo400 => 2
    case Indigo600 => 3
    case Indigo800 => 4
  }

  /** `colors[level] || colors[0]`: an index outside the array, negative ones
      included, reads `undefined` and falls back to the level-0 colour. */
  function IntensityColor(level: int): (c: Swatch)
    ensures 0 <= level < |Palette| ==> PaletteIndex(c) == level
    ensures !(0 <= level < |Palette|) ==> c == Gray100
  {
    if 0 <= level < |Palette| then Palette[level] else Palette[0]
  }

  /** Only levels outside 1..4 are drawn in the no-activity colour. */
  lemma IntensityColorGray(level: int)
    ensures IntensityColor(level) == Gray100 <==> !(1 <= level <= 4)
  {
  }

  // ---------------------------------------------------------------------------
  // Week grouping

  function Blanks(k: nat): seq<Cell>
  {
    seq(k, _ => None)
  }

  function Present(days: seq<CalendarDay>): seq<Cell>
  {
    seq(|days|, i requires 0 <= i < |days| => Some(days[i]))
  }

  /** The number of `null` cells that completes a week holding `filled` cells so far. */
  function TrailingBlanks(filled: nat): nat
  {
    (7 - filled % 7) % 7
  }

  /** The grid read row by row: leading blanks up to the first day's weekday,
      every day in order, and trailing blanks up to a whole number of weeks. */
  function PaddedDays(days: seq<CalendarDay>): seq<Cell>
    requires days != []
  {
    var lead := days[0].weekday;
    Blanks(lead) + Present(days) + Blanks(TrailingBlanks(lead + |days|))
  }

  /** The days of a row of cells, with the padding removed. */
  function Strip(cells: seq<Cell>): seq<CalendarDay>
  {
    if cells == [] then []
    else Strip(cells[..|cells| - 1]) + (match cells[|cells| - 1] case Some(d) => [d] case None => [])
  }

  /** `CalendarHeatmap` lines 39-66: the days are pushed one by one onto the
      current week, which is closed as soon as it holds seven cells; before the
      first day, one `null` per weekday before it is pushed; a last, partial
      week is filled up with `null` and closed. */
  method GroupIntoWeeks(data: seq<CalendarDay>) returns (weeks: seq<seq<Cell>>)
    ensures forall k :: 0 <= k < |weeks| ==> |weeks[k]| == 7
    ensures data == [] ==> weeks == []
    ensures data != [] ==> Concat(weeks) == PaddedDays(data)
    ensures data != [] ==> |weeks| == (data[0].weekday + |data| + 6) / 7
  {
    weeks := [];
    var currentWeek: seq<Cell> := [];
    var index := 0;
    while index < |data|
      invariant 0 <= index <= |data|
      invariant forall k :: 0 <= k < |weeks| ==> |weeks[k]| == 7
      invariant |Concat(weeks)| == 7 * |weeks|
      invariant |currentWeek| < 7
      invariant index == 0 ==> weeks == [] && currentWeek == []
      invariant index > 0 ==> Concat(weeks) + currentWeek == Blanks(data[0].weekday) + Present(data[..index])
    {
      var day := data[index];
      if index == 0 {
        var i := 0;
        while i < day.weekday
          invariant 0 <= i <= day.weekday
          invariant currentWeek == Blanks(i)
        {
          currentWeek := currentWeek + [None];
          i := i + 1;
        }
      }
      PushDay(Concat(weeks), currentWeek, data, index);
      currentWeek := currentWeek + [Some(day)];
      if |currentWeek| == 7 {
        ConcatAppend(weeks, currentWeek);
        weeks := weeks + [currentWeek];
        currentWeek := [];
        assert Concat(weeks) + currentWeek == Concat(weeks);
      }
      index := index + 1;
    }
    if |currentWeek| > 0 {
      var lead := data[0].weekday;
      var filled := |currentWeek|;
      assert data[..|data|] == data;
      assert lead + |data| == 7 * |weeks| + filled;
      FilledModSeven(|weeks|, filled);
      while |currentWeek| < 7
        invariant filled <= |currentWeek| <= 7
        invariant Concat(weeks) + currentWeek == Blanks(lead) + Present(data) + Blanks(|currentWeek| - filled)
      {
        assert Blanks(|currentWeek| - filled) + [None] == Blanks(|currentWeek| + 1 - filled);
        assert Concat(weeks) + (currentWeek + [None]) == (Concat(weeks) + currentWeek) + [None];
        currentWeek := currentWeek + [None];
      }
      ConcatAppend(weeks, currentWeek);
      weeks := weeks + [currentWeek];
    } else if data != [] {
      var lead := data[0].weekday;
      assert data[..|data|] == data;
      FilledModSeven(|weeks|, 0);
      assert lead + |data| == 7 * |weeks|;
      assert Blanks(TrailingBlanks(lead + |data|)) == [];
    }
  }

  /** Pushing the next day onto the current week extends the cells laid out so far by that day. */
  lemma PushDay(flat: seq<Cell>, currentWeek: seq<Cell>, data: seq<CalendarDay>, index: nat)
    requires index < |data|
    requires flat + currentWeek == Blanks(data[0].weekday) + Present(data[..index])
    ensures flat + (currentWeek + [Some(data[index])]) == Blanks(data[0].weekday) + Present(data[..index + 1])
  {
    assert Present(data[..index + 1]) == Present(data[..index]) + [Some(data[index])];
    assert flat + (currentWeek + [Some(data[index])]) == (flat + currentWeek) + [Some(data[index])];
  }

  lemma FilledModSeven(full: nat, filled: nat)
    requires filled < 7
    ensures TrailingBlanks(7 * full + filled) == if filled == 0 then 0 else 7 - filled
    ensures (7 * full + filled + 6) / 7 == if filled == 0 then full else full + 1
  {
    assert (7 * full + filled) % 7 == filled;
  }

  // ---------------------------------------------------------------------------
  // Properties of the grid

  /** What `GroupIntoWeeks` promises for non-empty input. */
  predicate IsWeekGrid(weeks: seq<seq<Cell>>, data: seq<CalendarDay>)
  {
    data != [] &&
    (forall k :: 0 <= k < |weeks| ==> |weeks[k]| == 7) &&
    Concat(weeks) == PaddedDays(data)
  }

  lemma {:induction false} StripAppend(a: seq<Cell>, b: seq<Cell>)
    ensures Strip(a + b) == Strip(a) + Strip(b)
    decreases |b|
  {
    if b != [] {
      var last := b[|b| - 1];
      assert (a + b)[..|a + b| - 1] == a + b[..|b| - 1];
      StripAppend(a, b[..|b| - 1]);
    } else {
      assert a + b == a;
    }
  }

  lemma {:induction false} StripBlanks(k: nat)
    ensures Strip(Blanks(k)) == []
  {
    if k > 0 {
      assert Blanks(k)[..k - 1] == Blanks(k - 1);
      StripBlanks(k - 1);
    }
  }

  lemma {:induction false} StripPresent(days: seq<CalendarDay>)
    ensures Strip(Present(days)) == days
  {
    if days != [] {
      var init := days[..|days| - 1];
      assert Present(days)[..|days| - 1] == Present(init);
      StripPresent(init);
      assert init + [days[|days| - 1]] == days;
    }
  }

  /** Dropping the `null` cells of the grid, row by row, gives back the days in order. */
  lemma StripPaddedDays(data: seq<CalendarDay>)
    requires data != []
    ensures Strip(PaddedDays(data)) == data
  {
    var lead := data[0].weekday;
    var trail := TrailingBlanks(lead + |data|);
    StripAppend(Blanks(lead) + Present(data), Blanks(trail));
    StripAppend(Blanks(lead), Present(data));
    StripBlanks(lead);
    StripBlanks(trail);
    StripPresent(data);
  }

  /** Each cell of the grid: day `p - d` when the flat position `p = 7k + j`
      lies between the first day's weekday `d` and `d + |data|`, and `null`
      everywhere else. */
  lemma GridCell(weeks: seq<seq<Cell>>, data: seq<CalendarDay>, k: nat, j: nat)
    requires IsWeekGrid(weeks, data)
    requires k < |weeks| && j < 7
    ensures var d, p := data[0].weekday, 7 * k + j;
      weeks[k][j] == if d <= p < d + |data| then Some(data[p - d]) else None
  {
    ConcatIndex(weeks, 7, k, j);
  }

  /** The first week opens with exactly as many `null` cells as the weekday of the first day. */
  lemma FirstWeekPadding(weeks: seq<seq<Cell>>, data: seq<CalendarDay>)
    requires IsWeekGrid(weeks, data)
    ensures |weeks| > 0
    ensures weeks[0][..data[0].weekday] == Blanks(data[0].weekday)
    ensures weeks[0][data[0].weekday] == Some(data[0])
  {
    ConcatLength(weeks, 7);
    var d := data[0].weekday;
    forall j | 0 <= j <= d
      ensures weeks[0][j] == if j < d then None else Some(data[0])
    {
      GridCell(weeks, data, 0, j);
    }
  }

  /** A `null` cell is either leading padding of the first week or trailing
      padding of the last week. */
  lemma BlanksOnlyAtEdges(weeks: seq<seq<Cell>>, data: seq<CalendarDay>, k: nat, j: nat)
    requires IsWeekGrid(weeks, data)
    requires k < |weeks| && j < 7
    requires weeks[k][j] == None
    ensures (k == 0 && j < data[0].weekday) || (k == |weeks| - 1 && 7 * k + j >= data[0].weekday + |data|)
  {
    GridCell(weeks, data, k, j);
    ConcatLength(weeks, 7);
    var d, n := data[0].weekday, |data|;
    var filled := (d + n) % 7;
    FilledModSeven((d + n) / 7, filled);
  }
}

=== FILE: common.dfy ===
/** Shared vocabulary of the dashboards: optional values, the order-preserving
    `.filter` of JavaScript arrays, ASCII case mapping and the flattening of
    nested sequences. */
module Common {

  datatype Option<+T> = None | Some(value: T)

  /** A day of the week as `Date.prototype.getDay` numbers it: 0 is Sunday, 6 is Saturday. */
  type Weekday = w: int | 0 <= w < 7

  /** The badge colour that the status switches of the student and faculty
      dashboards hand out (green, yellow, red and gray, each with its border). */
  datatype StatusColor = GreenBadge | YellowBadge | RedBadge | GrayBadge

  // ---------------------------------------------------------------------------
  // Array.prototype.filter

  /** `xs.filter(keep)`: the elements for which `keep` holds, in their original order. */
  function Filter<T>(xs: seq<T>, keep: T -> bool): (r: seq<T>)
    ensures |r| <= |xs|
    ensures forall x :: x in r ==> x in xs && keep(x)
  {
    if xs == [] then []
    else (if keep(xs[0]) then [xs[0]] else []) + Filter(xs[1..], keep)
  }

  /** `a` is obtained from `b` by deleting elements, keeping the order of the rest. */
  predicate IsSubsequence<T(==)>(a: seq<T>, b: seq<T>)
  {
    if b == [] then a == []
    else (a != [] && a[0] == b[0] && IsSubsequence(a[1..], b[1..])) || IsSubsequence(a, b[1..])
  }

  /** The filter keeps the relative order of what it keeps. */
  lemma {:induction false} FilterIsSubsequence<T>(xs: seq<T>, keep: T -> bool)
    ensures IsSubsequence(Filter(xs, keep), xs)
  {
    if xs != [] {
      FilterIsSubsequence(xs[1..], keep);
      var rest := Filter(xs[1..], keep);
      if keep(xs[0]) {
        assert Filter(xs, keep) == [xs[0]] + rest;
        var r := [xs[0]] + rest;
        assert r[0] == xs[0] && r[1..] == rest;
        assert IsSubsequence(r[1..], xs[1..]);
      } else {
        assert Filter(xs, keep) == rest;
      }
    }
  }

  /** The filter keeps every occurrence of a kept value and no occurrence of a dropped one. */
  lemma {:induction false} FilterCounts<T>(xs: seq<T>, keep: T -> bool, x: T)
    ensures multiset(Filter(xs, keep))[x] == if keep(x) then multiset(xs)[x] else 0
  {
    if xs != [] {
      FilterCounts(xs[1..], keep, x);
      assert xs == [xs[0]] + xs[1..];
      assert multiset(xs) == multiset([xs[0]]) + multiset(xs[1..]);
    }
  }

  /** Filtering a concatenation filters each part. */
  lemma {:induction false} FilterAppend<T>(a: seq<T>, b: seq<T>, keep: T -> bool)
    ensures Filter(a + b, keep) == Filter(a, keep) + Filter(b, keep)
  {
    if a != [] {
      assert (a + b)[1..] == a[1..] + b;
      FilterAppend(a[1..], b, keep);
    } else {
      assert a + b == b;
    }
  }

  /** When every element passes, the filter returns the whole sequence. */
  lemma {:induction false} FilterKeepsAll<T>(xs: seq<T>, keep: T -> bool)
    requires forall i :: 0 <= i < |xs| ==> keep(xs[i])
    ensures Filter(xs, keep) == xs
  {
    if xs != [] {
      FilterKeepsAll(xs[1..], keep);
      assert [xs[0]] + xs[1..] == xs;
    }
  }

  /** When no element passes, the filter returns nothing. */
  lemma {:induction false} FilterKeepsNone<T>(xs: seq<T>, keep: T -> bool)
    requires forall i :: 0 <= i < |xs| ==> !keep(xs[i])
    ensures Filter(xs, keep) == []
  {
    if xs != [] {
      FilterKeepsNone(xs[1..], keep);
    }
  }

  // ---------------------------------------------------------------------------
  // ASCII case mapping (String.prototype.toLowerCase / toUpperCase on ASCII letters)

  predicate IsUpper(c: char) { 'A' <= c <= 'Z' }
  predicate IsLower(c: char) { 'a' <= c <= 'z' }

  /** `toLowerCase` on one character, for ASCII letters. */
  function LowerChar(c: char): (l: char)
    ensures !IsUpper(l)
    ensures !IsUpper(c) ==> l == c
    ensures IsUpper(c) ==> IsLower(l)
  {
    if IsUpper(c) then (c as int + 32) as char else c
  }

  /** `toUpperCase` on one character, for ASCII letters: a lower-case letter
      becomes the upper-case letter that lower-cases back to it. */
  function UpperChar(c: char): (u: char)
    ensures !IsLower(u)
    ensures !IsLower(c) ==> u == c
    ensures IsLower(c) ==> IsUpper(u) && LowerChar(u) == c
  {
    if IsLower(c) then (c as int - 32) as char else c
  }

  /** `String.prototype.toLowerCase`, for ASCII letters: the same length, no
      upper-case letter left, and every other character kept. */
  function ToLower(s: string): (r: string)
    ensures |r| == |s|
    ensures forall i :: 0 <= i < |s| ==> !IsUpper(r[i]) && (!IsUpper(s[i]) ==> r[i] == s[i])
  {
    seq(|s|, i requires 0 <= i < |s| => LowerChar(s[i]))
  }

  /** A lower-cased string holds no upper-case letter. */
  lemma ToLowerHasNoUpper(s: string)
    ensures forall i :: 0 <= i < |ToLower(s)| ==> !IsUpper(ToLower(s)[i])
  {
  }

  /** Lower-casing twice is lower-casing once. */
  lemma ToLowerIdempotent(s: string)
    ensures ToLower(ToLower(s)) == ToLower(s)
  {
  }

  /** Upper-casing a letter and lower-casing it again gives back its lower-case form. */
  lemma LowerOfUpperChar(c: char)
    ensures LowerChar(UpperChar(c)) == LowerChar(c)
  {
  }

  // ---------------------------------------------------------------------------
  // Flattening

  /** The concatenation of a sequence of sequences, in order. */
  function Concat<T>(ws: seq<seq<T>>): seq<T>
  {
    if ws == [] then [] else Concat(ws[..|ws| - 1]) + ws[|ws| - 1]
  }

  lemma ConcatAppend<T>(ws: seq<seq<T>>, w: seq<T>)
    ensures Concat(ws + [w]) == Concat(ws) + w
  {
    assert (ws + [w])[..|ws|] == ws;
  }

  /** Flattening from the front: the first row, then the rest. */
  lemma {:induction false} ConcatFront<T>(ws: seq<seq<T>>)
    requires ws != []
    ensures Concat(ws) == ws[0] + Concat(ws[1..])
  {
    if |ws| > 1 {
      var init := ws[..|ws| - 1];
      ConcatFront(init);
      assert init[1..] == ws[1..][..|ws[1..]| - 1];
    } else {
      assert ws[..0] == [];
    }
  }

  /** A grid whose rows all have length `width` flattens to `width` cells per row. */
  lemma {:induction false} ConcatLength<T>(ws: seq<seq<T>>, width: nat)
    requires forall m :: 0 <= m < |ws| ==> |ws[m]| == width
    ensures |Concat(ws)| == width * |ws|
  {
    if ws != [] {
      var init := ws[..|ws| - 1];
      assert forall m :: 0 <= m < |init| ==> init[m] == ws[m];
      ConcatLength(init, width);
      assert Concat(ws) == Concat(init) + ws[|ws| - 1];
      assert width * |ws| == width * |init| + width;
    }
  }

  /** Position `j` of row `k` lies before the end of row `n - 1` when `k < n`. */
  lemma {:induction false} RowOffset(width: nat, k: nat, j: nat, n: nat)
    requires k < n && j < width
    ensures width * k + j < width * n
    decreases n - k
  {
    assert width * (k + 1) == width * k + width;
    if k + 1 < n {
      RowOffset(width, k + 1, j, n);
    }
  }

  /** Cell `j` of row `k` of a grid whose rows all have length `width` is cell
      `width * k + j` of the flattened grid. */
  lemma {:induction false} ConcatIndex<T>(ws: seq<seq<T>>, width: nat, k: nat, j: nat)
    requires forall m :: 0 <= m < |ws| ==> |ws[m]| == width
    requires k < |ws| && j < width
    ensures |Concat(ws)| == width * |ws|
    ensures width * k + j < |Concat(ws)|
    ensures Concat(ws)[width * k + j] == ws[k][j]
  {
    var last := |ws| - 1;
    var init := ws[..last];
    ConcatLength(ws, width);
    ConcatLength(init, width);
    RowOffset(width, k, j, |ws|);
    assert Concat(ws) == Concat(init) + ws[last];
    if k < last {
      ConcatIndex(init, width, k, j);
    } else {
      assert width * k == |Concat(init)|;
    }
  }
}

=== FILE: dashboard_navigation.dfy ===
/** The navigation bar: the dashboard switcher, which picks the dashboard
    whose route matches the current path, and the role badge and user menu,
    which show a colour, an avatar, initials, a name and an e-mail address for
    the selected role. */
module DashboardNavigation {
  import opened Common
  import AuthLandingPage

  datatype RouteIcon = UserIcon | GraduationCapIcon | ShieldIcon

  datatype Route = Route(title: string, href: string, icon: RouteIcon, description: string, role: string)

  /** `dashboardRoutes`: the student dashboard lives at "/", not at "/student". */
  const DashboardRoutes: seq<Route> := [
    Route("Student Dashboard", "/", UserIcon, "Manage activities and view progress", "student"),
    Route("Faculty Dashboard", "/faculty", GraduationCapIcon, "Review and approve submissions", "faculty"),
    Route("Admin Dashboard", "/admin", ShieldIcon, "Institution-wide management", "admin")
  ]

  /** The hrefs of the routes are pairwise distinct, so at most one route matches a path. */
  lemma RouteHrefsDistinct()
    ensures forall i, j :: 0 <= i < j < |DashboardRoutes| ==> DashboardRoutes[i].href != DashboardRoutes[j].href
  {
    assert "/" != "/faculty";
    assert "/" != "/admin";
    assert "/faculty"[1] != "/admin"[1];
  }

  // ---------------------------------------------------------------------------
  // getCurrentDashboard

  /** `Array.prototype.find` on the href: the first route whose href is the path, if any. */
  function FindRoute(routes: seq<Route>, path: string): (r: Option<Route>)
    ensures r.None? <==> forall i :: 0 <= i < |routes| ==> routes[i].href != path
    ensures r.Some? ==> exists i :: 0 <= i < |routes| && routes[i] == r.value && r.value.href == path &&
                                    forall j :: 0 <= j < i ==> routes[j].href != path
  {
    if routes == [] then None
    else if routes[0].href == path then Some(routes[0])
    else
      var rest := FindRoute(routes[1..], path);
      if rest.Some? then
        var i :| 0 <= i < |routes[1..]| && routes[1..][i] == rest.value && rest.value.href == path &&
                 forall j :: 0 <= j < i ==> routes[1..][j].href != path;
        assert routes[i + 1] == rest.value;
        assert forall j :: 1 <= j < i + 1 ==> routes[j] == routes[1..][j - 1];
        rest
      else
        assert forall i :: 1 <= i < |routes| ==> routes[i] == routes[1..][i - 1];
        rest
  }

  /** `find(...) || dashboardRoutes[0]`: a found route is always truthy, so the
      first route is shown only when no route matches. */
  function CurrentDashboard(path: string): (r: Route)
    ensures r in DashboardRoutes
    ensures (exists i :: 0 <= i < |DashboardRoutes| && DashboardRoutes[i].href == path) ==> r.href == path
    ensures (forall i :: 0 <= i < |DashboardRoutes| ==> DashboardRoutes[i].href != path) ==> r == DashboardRoutes[0]
  {
    match FindRoute(DashboardRoutes, path)
    case Some(route) => route
    case None => DashboardRoutes[0]
  }

  /** Each route's own href selects that route. */
  lemma EachRouteSelectsItself(i: nat)
    requires i < |DashboardRoutes|
    ensures CurrentDashboard(DashboardRoutes[i].href) == DashboardRoutes[i]
  {
    RouteHrefsDistinct();
    var r := CurrentDashboard(DashboardRoutes[i].href);
    var k :| 0 <= k < |DashboardRoutes| && DashboardRoutes[k] == r;
    assert DashboardRoutes[k].href == DashboardRoutes[i].href;
  }

  /** Login sends a student to "/student", which no route has as its href: the
      switcher shows the student dashboard there only through its fallback. */
  lemma StudentLoginPathOnlyByFallback()
    ensures AuthLandingPage.LoginTarget("student") == Some("/student")
    ensures forall i :: 0 <= i < |DashboardRoutes| ==> DashboardRoutes[i].href != "/student"
    ensures CurrentDashboard("/student") == DashboardRoutes[0]
  {
    assert "/student" != "/";
    assert "/student"[1] != "/faculty"[1];
    assert "/student"[1] != "/admin"[1];
  }

  /** Faculty and admin logins land on their own routes by href. */
  lemma OtherLoginPathsMatchRoutes()
    ensures CurrentDashboard(AuthLandingPage.LoginTarget("faculty").value) == DashboardRoutes[1]
    ensures CurrentDashboard(AuthLandingPage.LoginTarget("admin").value) == DashboardRoutes[2]
  {
    EachRouteSelectsItself(1);
    EachRouteSelectsItself(2);
  }

  // ---------------------------------------------------------------------------
  // Role badge and user menu

  /** `useState(currentRole)` with the prop defaulting to "student". */
  function InitialSelectedRole(currentRole: Option<string>): (role: string)
    ensures currentRole.None? ==> role == "student"
    ensures currentRole.Some? ==> role == currentRole.value
  {
    match currentRole
    case Some(r) => r
    case None => "student"
  }

  datatype RoleColor = BlueRole | GreenRole | PurpleRole | GrayRole

  /** `getRoleColor`: gray for any role but the three known ones. */
  function RoleColorOf(role: string): (c: RoleColor)
    ensures c == GrayRole <==> role !in {"student", "faculty", "admin"}
  {
    match role
    case "student" => BlueRole
    case "faculty" => GreenRole
    case "admin" => PurpleRole
    case _ => GrayRole
  }

  /** The badge text: the role upper-cased. */
  function RoleBadge(role: string): (badge: string)
    ensures |badge| == |role|
    ensures ToLower(badge) == ToLower(role)
    ensures forall i :: 0 <= i < |badge| ==> !IsLower(badge[i])
  {
    var badge := seq(|role|, i requires 0 <= i < |role| => UpperChar(role[i]));
    forall i | 0 <= i < |role|
      ensures LowerChar(badge[i]) == LowerChar(role[i])
    {
      LowerOfUpperChar(role[i]);
    }
    badge
  }

  const DefaultAvatar: string := "/diverse-students-studying.png"
  const PlaceholderAvatar: string := "/placeholder.svg"

  /** `getAvatarImage`: unknown roles get the student's picture. */
  function AvatarImage(role: string): (image: string)
    ensures image != ""
    ensures role !in {"faculty", "admin"} ==> image == DefaultAvatar
  {
    match role
    case "student" => DefaultAvatar
    case "faculty" => "/faculty-avatar.png"
    case "admin" => "/admin-avatar.png"
    case _ => DefaultAvatar
  }

  /** `getAvatarImage(role) || "/placeholder.svg"`: the image actually requested. */
  function ShownAvatar(role: string): (image: string)
    ensures image == AvatarImage(role)
  {
    var image := AvatarImage(role);
    if image != "" then image else PlaceholderAvatar
  }

  /** The placeholder is never requested: every role has a non-empty image. */
  lemma PlaceholderNeverShown(role: string)
    ensures ShownAvatar(role) == AvatarImage(role)
    ensures ShownAvatar(role) != PlaceholderAvatar
  {
    assert DefaultAvatar[1] != PlaceholderAvatar[1];
    assert "/faculty-avatar.png"[1] != PlaceholderAvatar[1];
    assert "/admin-avatar.png"[2] != PlaceholderAvatar[2];
  }

  /** `getAvatarFallback`: two-letter initials for the known roles, "U" otherwise. */
  function AvatarFallback(role: string): (initials: string)
    ensures initials == "U" <==> role !in {"student", "faculty", "admin"}
    ensures role in {"student", "faculty", "admin"} ==> |initials| == 2
  {
    match role
    case "student" => "ST"
    case "faculty" => "FC"
    case "admin" => "AD"
    case _ => "U"
  }

  /** The initials tell the known roles apart, and none of them is the unknown-role "U". */
  lemma FallbackIdentifiesRole(a: string, b: string)
    requires a in {"student", "faculty", "admin"} && b in {"student", "faculty", "admin"}
    requires AvatarFallback(a) == AvatarFallback(b)
    ensures a == b
  {
    assert "ST"[0] != "FC"[0] && "ST"[0] != "AD"[0] && "FC"[0] != "AD"[0];
  }

  /** The badge colour tells the known roles apart as well. */
  lemma RoleColorIdentifiesRole(a: string, b: string)
    requires a in {"student", "faculty", "admin"} && b in {"student", "faculty", "admin"}
    requires RoleColorOf(a) == RoleColorOf(b)
    ensures a == b
  {
  }

  /** The name in the user menu: any role other than student and faculty is shown as the admin. */
  function DisplayName(role: string): (name: string)
    ensures role == "student" ==> name == "John Smith"
    ensures role == "faculty" ==> name == "Dr. Sarah Wilson"
    ensures role !in {"student", "faculty"} ==> name == "Admin User"
  {
    if role == "student" then "John Smith"
    else if role == "faculty" then "Dr. Sarah Wilson"
    else "Admin User"
  }

  /** The e-mail address in the user menu, chosen like the name. */
  function DisplayEmail(role: string): (email: string)
    ensures role == "student" ==> email == "john.smith@university.edu"
    ensures role == "faculty" ==> email == "s.wilson@university.edu"
    ensures role !in {"student", "faculty"} ==> email == "admin@university.edu"
  {
    if role == "student" then "john.smith@university.edu"
    else if role == "faculty" then "s.wilson@university.edu"
    else "admin@university.edu"
  }

  /** Without a `currentRole` the bar shows the student: blue badge, "ST", John Smith. */
  lemma DefaultRoleIsStudent()
    ensures var role := InitialSelectedRole(None);
      RoleColorOf(role) == BlueRole && AvatarFallback(role) == "ST" &&
      DisplayName(role) == "John Smith" && ShownAvatar(role) == DefaultAvatar
  {
  }

  /** The lookups disagree on an unknown role: the colour is gray and the
      initials "U", but the menu names the admin and the avatar is the student's. */
  lemma UnknownRoleShownAsAdmin(role: string)
    requires role !in {"student", "faculty", "admin"}
    ensures RoleColorOf(role) == GrayRole && AvatarFallback(role) == "U"
    ensures DisplayName(role) == "Admin User" && AvatarImage(role) == DefaultAvatar
  {
  }
}

=== FILE: faculty_dashboard.dfy ===
/** The faculty review dashboard: the program/category filter over the
    submissions, the status and flag colours, the label shown for a flag, and
    the review decisions, which only clear the comment box. */
module FacultyDashboard {
  import opened Common

  datatype Submission = Submission(id: int, student: string, program: string, category: string,
                                   title: string, hours: int, submittedOn: string, evidence: string,
                                   flags: seq<string>, status: string)

  /** The submissions the dashboard lists; the decisions never change them. */
  const MockSubmissions: seq<Submission> := [
    Submission(1, "John Smith", "Computer Science", "NSS/NCC", "Blood Donation Camp", 8,
               "2024-01-15", "certificate.pdf", ["verified"], "pending"),
    Submission(2, "Sarah Johnson", "Electronics", "Hackathons", "TechFest 2024", 24,
               "2024-01-14", "participation_cert.pdf", ["duplicate"], "pending"),
    Submission(3, "Mike Wilson", "Mechanical", "Volunteering", "Community Teaching", 16,
               "2024-01-13", "completion_letter.pdf", ["missing_evidence"], "pending"),
    Submission(4, "Emily Davis", "Computer Science", "Internships", "Software Development Intern", 160,
               "2024-01-12", "internship_cert.pdf", [], "pending")
  ]

  // ---------------------------------------------------------------------------
  // filteredSubmissions

  /** A selector value matches a field when it is the "all" wildcard or equal to it (case-sensitive). */
  predicate Selects(selector: string, field: string)
  {
    selector == "all" || field == selector
  }

  function SubmissionMatches(program: string, category: string): Submission -> bool
  {
    (s: Submission) => Selects(program, s.program) && Selects(category, s.category)
  }

  /** `filteredSubmissions` for the selected program and category. */
  function FilteredSubmissions(submissions: seq<Submission>, program: string, category: string): (r: seq<Submission>)
    ensures |r| <= |submissions|
    ensures forall s :: s in r ==>
      s in submissions && (program == "all" || s.program == program) && (category == "all" || s.category == category)
  {
    Filter(submissions, SubmissionMatches(program, category))
  }

  /** With both selectors on "all", every submission is listed. */
  lemma AllSelectorsListEverything(submissions: seq<Submission>)
    ensures FilteredSubmissions(submissions, "all", "all") == submissions
  {
    FilterKeepsAll(submissions, SubmissionMatches("all", "all"));
  }

  /** Every listed submission matches the selected program and category
      exactly unless that selector is "all"; every matching submission is
      listed as often as it occurs; the listing keeps the original order. */
  lemma FilterKeepsExactlyMatches(submissions: seq<Submission>, program: string, category: string, s: Submission)
    ensures var r := FilteredSubmissions(submissions, program, category);
      (s in r ==> s in submissions && (program != "all" ==> s.program == program) &&
                  (category != "all" ==> s.category == category)) &&
      (Selects(program, s.program) && Selects(category, s.category) ==> multiset(r)[s] == multiset(submissions)[s]) &&
      IsSubsequence(r, submissions)
  {
    FilterCounts(submissions, SubmissionMatches(program, category), s);
    FilterIsSubsequence(submissions, SubmissionMatches(program, category));
  }

  /** On the dashboard's data, the "Computer Science" program lists submissions 1 and 4. */
  lemma ComputerScienceListing()
    ensures FilteredSubmissions(MockSubmissions, "Computer Science", "all") == [MockSubmissions[0], MockSubmissions[3]]
  {
    var keep := SubmissionMatches("Computer Science", "all");
    var m := MockSubmissions;
    assert m[3..][1..] == [];
    assert Filter(m[3..], keep) == [m[3]];
    assert m[2..][1..] == m[3..];
    assert Filter(m[2..], keep) == [m[3]];
    assert m[1..][1..] == m[2..];
    assert Filter(m[1..], keep) == [m[3]];
  }

  // ---------------------------------------------------------------------------
  // Colours and labels

  /** `getStatusColor`: a case-insensitive switch whose default is gray. */
  function StatusColorOf(status: string): (c: StatusColor)
    ensures c == GrayBadge <==> ToLower(status) !in {"approved", "pending", "rejected"}
  {
    match ToLower(status)
    case "approved" => GreenBadge
    case "pending" => YellowBadge
    case "rejected" => RedBadge
    case _ => GrayBadge
  }

  /** The status colour ignores case: a status and its lower-cased form get the same colour. */
  lemma StatusColorIgnoresCase(status: string)
    ensures StatusColorOf(status) == StatusColorOf(ToLower(status))
  {
    ToLowerIdempotent(status);
  }

  datatype FlagColor = RedFlag | OrangeFlag | GreenFlag | GrayFlag

  /** `getFlagColor`: a case-sensitive switch over the known flags, gray for any other. */
  function FlagColorOf(flag: string): (c: FlagColor)
    ensures c == GrayFlag <==> flag !in {"duplicate", "missing_evidence", "verified"}
  {
    match flag
    case "duplicate" => RedFlag
    case "missing_evidence" => OrangeFlag
    case "verified" => GreenFlag
    case _ => GrayFlag
  }

  /** Flags are matched case-sensitively: a capitalised flag falls to the default. */
  lemma FlagColorIsCaseSensitive()
    ensures FlagColorOf("Duplicate") == GrayFlag
    ensures FlagColorOf("duplicate") == RedFlag
  {
    assert "Duplicate"[0] != "duplicate"[0];
  }

  /** `flag.replace("_", " ")`: a string pattern replaces only its first
      occurrence, so exactly the first underscore becomes a space. */
  function FlagLabel(flag: string): (r: string)
    ensures |r| == |flag|
    ensures forall j :: 0 <= j < |flag| ==>
      r[j] == if flag[j] == '_' && '_' !in flag[..j] then ' ' else flag[j]
  {
    if flag == [] then []
    else if flag[0] == '_' then " " + flag[1..]
    else
      var rest := FlagLabel(flag[1..]);
      assert forall j :: 1 <= j <= |flag| ==> flag[..j] == [flag[0]] + flag[1..][..j - 1];
      [flag[0]] + rest
  }

  /** A flag without an underscore is shown as it is. */
  lemma FlagLabelWithoutUnderscore(flag: string)
    requires '_' !in flag
    ensures FlagLabel(flag) == flag
  {
    forall j | 0 <= j < |flag|
      ensures FlagLabel(flag)[j] == flag[j]
    {
      assert flag[j] in flag;
    }
  }

  /** Only the first underscore is replaced: a later one stays. */
  lemma FlagLabelKeepsLaterUnderscores(flag: string, i: nat, j: nat)
    requires i < j < |flag| && flag[i] == '_' && flag[j] == '_'
    ensures FlagLabel(flag)[j] == '_'
  {
    assert flag[..j][i] == '_';
  }

  /** A flag `before + "_" + after` with no underscore in `before` is shown as
      `before + " " + after`, whatever `after` holds; so "missing_evidence" is
      shown as "missing evidence". */
  lemma FlagLabelAtFirstUnderscore(before: string, after: string)
    requires '_' !in before
    ensures FlagLabel(before + "_" + after) == before + " " + after
  {
    var flag := before + "_" + after;
    var k := |before|;
    forall j | 0 <= j < |flag|
      ensures FlagLabel(flag)[j] == (before + " " + after)[j]
    {
      if j < k {
        assert flag[j] == before[j];
        assert flag[..j] == before[..j];
        assert flag[j] in before;
      } else if j == k {
        assert flag[..j] == before;
      } else {
        assert flag[..j][k] == '_';
      }
    }
  }

  // ---------------------------------------------------------------------------
  // Review state

  datatype Decision = Approve | Reject | RequestRework

  class FacultyReviewState {
    var selectedProgram: string
    var selectedCategory: string
    var comment: string

    constructor ()
      ensures selectedProgram == "all" && selectedCategory == "all" && comment == ""
    {
      selectedProgram := "all";
      selectedCategory := "all";
      comment := "";
    }

    /** The submissions the table shows for the current selectors. */
    function Listed(): seq<Submission>
      reads this
    {
      FilteredSubmissions(MockSubmissions, selectedProgram, selectedCategory)
    }

    /** `onChange` of the comment box. */
    method SetComment(text: string)
      modifies this`comment
      ensures comment == text
    {
      comment := text;
    }

    /** `handleApprove`, `handleReject` and `handleRequestRework`: each logs the
        decision and clears the comment; no submission and no selector changes. */
    method Decide(decision: Decision, submissionId: int)
      modifies this`comment
      ensures comment == ""
      ensures Listed() == old(Listed())
    {
      comment := "";
    }
  }
}

=== FILE: file_upload.dfy ===
/** The evidence upload widget: a list of uploaded files that grows when files
    are picked, whose entries advance towards 100% progress with simulated
    ticks, are finalised, removed one by one or cleared together; plus the
    guard of the Submit button and the icon chosen for a MIME type. */
module FileUpload {
  import opened Common

  /** `"uploading" | "completed" | "error"`; nothing in the widget ever sets `Error`. */
  datatype UploadStatus = Uploading | Completed | Error

  /** `UploadedFile`. `size` is the human-readable size label and `progress` a percentage. */
  datatype UploadedFile = UploadedFile(id: string, name: string, size: string, fileType: string,
                                       activity: string, status: UploadStatus, progress: real)

  /** A file picked or dropped by the user. `sizeLabel` stands for `formatFileSize(file.size)`. */
  datatype IncomingFile = IncomingFile(name: string, sizeLabel: string, fileType: string)

  /** The invariant every entry keeps: progress is a percentage, the status is
      never `Error`, and an entry is completed exactly when it is at 100%. */
  predicate WellFormed(f: UploadedFile)
  {
    0.0 <= f.progress <= 100.0 && f.status != Error && (f.status == Completed <==> f.progress == 100.0)
  }

  predicate AllWellFormed(files: seq<UploadedFile>)
  {
    forall i :: 0 <= i < |files| ==> WellFormed(files[i])
  }

  // ---------------------------------------------------------------------------
  // handleFiles: one new entry per incoming file

  /** `selectedActivity || "Unassigned"`: the empty string is falsy. */
  function ActivityLabel(selectedActivity: string): (shown: string)
    ensures shown != ""
    ensures selectedActivity != "" ==> shown == selectedActivity
  {
    if selectedActivity != "" then selectedActivity else "Unassigned"
  }

  /** The entries `handleFiles` creates; `ids` stands for the random ids drawn for them. */
  function NewEntries(incoming: seq<IncomingFile>, ids: seq<string>, selectedActivity: string): (entries: seq<UploadedFile>)
    requires |ids| == |incoming|
    ensures |entries| == |incoming| && AllWellFormed(entries)
    ensures forall i :: 0 <= i < |entries| ==> entries[i].id == ids[i] && entries[i].activity != ""
  {
    seq(|incoming|, i requires 0 <= i < |incoming| =>
      UploadedFile(ids[i], incoming[i].name, incoming[i].sizeLabel, incoming[i].fileType,
                   ActivityLabel(selectedActivity), Uploading, 0.0))
  }

  /** One new entry per incoming file, in order: it carries the drawn id and the
      file's name, size and type, is uploading at 0%, and is filed under the
      selected category or, when none is selected, under "Unassigned". */
  lemma NewEntriesFresh(incoming: seq<IncomingFile>, ids: seq<string>, selectedActivity: string)
    requires |ids| == |incoming|
    ensures var entries := NewEntries(incoming, ids, selectedActivity);
      |entries| == |incoming| && AllWellFormed(entries) &&
      forall i :: 0 <= i < |entries| ==>
        entries[i].id == ids[i] && entries[i].name == incoming[i].name &&
        entries[i].fileType == incoming[i].fileType &&
        entries[i].status == Uploading && entries[i].progress == 0.0 &&
        entries[i].activity != "" &&
        (selectedActivity != "" ==> entries[i].activity == selectedActivity) &&
        (selectedActivity == "" ==> entries[i].activity == "Unassigned")
  {
  }

  // ---------------------------------------------------------------------------
  // simulateUpload: progress ticks and the final completion

  /** One interval tick of an entry: progress grows by `increment` (a draw of
      `Math.random() * 30`), capped at 100, and the entry is completed exactly
      when it reaches 100. */
  function TickEntry(f: UploadedFile, increment: real): (r: UploadedFile)
    requires 0.0 <= increment < 30.0
    ensures r.id == f.id && r.name == f.name && r.size == f.size && r.fileType == f.fileType && r.activity == f.activity
    ensures f.progress <= 100.0 ==> f.progress <= r.progress
    ensures r.progress <= 100.0 && r.progress <= f.progress + increment
    ensures r.status == Completed <==> r.progress == 100.0
    ensures WellFormed(f) ==> WellFormed(r)
  {
    var newProgress := if f.progress + increment < 100.0 then f.progress + increment else 100.0;
    f.(progress := newProgress, status := if newProgress == 100.0 then Completed else Uploading)
  }

  /** One draw of `Math.random() * 30` per list position: the map callback
      evaluates it afresh for every entry that carries the id. */
  predicate Draws(increments: seq<real>, files: seq<UploadedFile>)
  {
    |increments| == |files| && forall i :: 0 <= i < |increments| ==> 0.0 <= increments[i] < 30.0
  }

  /** `prev.map(...)` of a tick: the entry at position i with id `fileId`
      advances by its own draw `increments[i]`, the others stay. */
  function Ticked(files: seq<UploadedFile>, fileId: string, increments: seq<real>): (r: seq<UploadedFile>)
    requires Draws(increments, files)
    ensures |r| == |files|
    ensures forall i :: 0 <= i < |files| ==>
      r[i].id == files[i].id && (files[i].id != fileId ==> r[i] == files[i]) &&
      (files[i].id == fileId ==> r[i].progress <= files[i].progress + increments[i]) &&
      (files[i].id == fileId && WellFormed(files[i]) ==> files[i].progress <= r[i].progress <= 100.0)
  {
    seq(|files|, i requires 0 <= i < |files| =>
      if files[i].id == fileId then TickEntry(files[i], increments[i]) else files[i])
  }

  /** A tick changes only the entries with the given id, keeps the length and
      the order of the list, never lowers a progress and keeps the invariant. */
  lemma TickTouchesOnlyId(files: seq<UploadedFile>, fileId: string, increments: seq<real>)
    requires Draws(increments, files)
    requires AllWellFormed(files)
    ensures var r := Ticked(files, fileId, increments);
      |r| == |files| && AllWellFormed(r) &&
      forall i :: 0 <= i < |files| ==>
        r[i].id == files[i].id && files[i].progress <= r[i].progress &&
        (files[i].id != fileId ==> r[i] == files[i])
  {
  }

  /** Two entries that share an id advance by separate draws, so one tick can
      leave them at different progress. */
  lemma SharedIdEntriesAdvanceSeparately(f: UploadedFile)
    requires WellFormed(f) && f.progress == 0.0
    ensures var r := Ticked([f, f], f.id, [12.5, 27.0]);
      r[0].progress == 12.5 && r[1].progress == 27.0
  {
  }

  /** The timeout at the end of the simulated upload: the entry is set to 100% and completed. */
  function FinaliseEntry(f: UploadedFile): UploadedFile
  {
    f.(progress := 100.0, status := Completed)
  }

  /** `prev.map(...)` of the final timeout: the entries with id `fileId` are completed, the others stay. */
  function Finalised(files: seq<UploadedFile>, fileId: string): (r: seq<UploadedFile>)
    ensures |r| == |files|
    ensures forall i :: 0 <= i < |files| ==>
      r[i].id == files[i].id && (files[i].id != fileId ==> r[i] == files[i]) &&
      (files[i].id == fileId ==> r[i].progress == 100.0 && r[i].status == Completed)
  {
    seq(|files|, i requires 0 <= i < |files| =>
      if files[i].id == fileId then FinaliseEntry(files[i]) else files[i])
  }

  /** Finalising an id completes its entries at 100% and touches no other entry. */
  lemma FinaliseTouchesOnlyId(files: seq<UploadedFile>, fileId: string)
    requires AllWellFormed(files)
    ensures var r := Finalised(files, fileId);
      |r| == |files| && AllWellFormed(r) &&
      forall i :: 0 <= i < |files| ==>
        (files[i].id == fileId ==> r[i].progress == 100.0 && r[i].status == Completed &&
                                   r[i].(progress := files[i].progress, status := files[i].status) == files[i]) &&
        (files[i].id != fileId ==> r[i] == files[i])
  {
  }

  // ---------------------------------------------------------------------------
  // removeFile

  function IdIsNot(fileId: string): UploadedFile -> bool
  {
    (f: UploadedFile) => f.id != fileId
  }

  /** `prev.filter((file) => file.id !== fileId)` */
  function Removed(files: seq<UploadedFile>, fileId: string): (r: seq<UploadedFile>)
    ensures |r| <= |files|
    ensures forall g :: g in r ==> g in files && g.id != fileId
  {
    Filter(files, IdIsNot(fileId))
  }

  /** Removal drops every entry with the id and keeps every other entry, as
      often as it occurs and in its original order. */
  lemma RemoveKeepsOthers(files: seq<UploadedFile>, fileId: string, f: UploadedFile)
    ensures forall g :: g in Removed(files, fileId) ==> g.id != fileId
    ensures IsSubsequence(Removed(files, fileId), files)
    ensures f.id != fileId ==> multiset(Removed(files, fileId))[f] == multiset(files)[f]
  {
    FilterIsSubsequence(files, IdIsNot(fileId));
    FilterCounts(files, IdIsNot(fileId), f);
  }

  /** Removing an id that no entry has leaves the list as it is. */
  lemma RemoveAbsentIsNoop(files: seq<UploadedFile>, fileId: string)
    requires forall i :: 0 <= i < |files| ==> files[i].id != fileId
    ensures Removed(files, fileId) == files
  {
    FilterKeepsAll(files, IdIsNot(fileId));
  }

  /** Removing the same id twice is removing it once. */
  lemma RemoveIdempotent(files: seq<UploadedFile>, fileId: string)
    ensures Removed(Removed(files, fileId), fileId) == Removed(files, fileId)
  {
    var once := Removed(files, fileId);
    assert forall i :: 0 <= i < |once| ==> once[i] in once;
    RemoveAbsentIsNoop(once, fileId);
  }

  // ---------------------------------------------------------------------------
  // Submit guard and file icon

  /** `disabled={files.length === 0 || !selectedActivity || !activityTitle}`, negated. */
  function CanSubmit(files: seq<UploadedFile>, selectedActivity: string, activityTitle: string): (enabled: bool)
    ensures enabled ==> files != [] && selectedActivity != "" && activityTitle != ""
  {
    !(|files| == 0 || selectedActivity == "" || activityTitle == "")
  }

  /** Submit is enabled exactly when there is a file, a category and a title. */
  lemma SubmitGuard(files: seq<UploadedFile>, selectedActivity: string, activityTitle: string)
    ensures CanSubmit(files, selectedActivity, activityTitle) <==>
      files != [] && selectedActivity != "" && activityTitle != ""
  {
  }

  /** Clear All disables Submit; picking at least one file with a category and
      a title selected enables it. */
  lemma SubmitAfterClearAndPick(files: seq<UploadedFile>, incoming: seq<IncomingFile>, ids: seq<string>,
                                selectedActivity: string, activityTitle: string)
    requires |ids| == |incoming|
    ensures !CanSubmit([], selectedActivity, activityTitle)
    ensures incoming != [] && selectedActivity != "" && activityTitle != "" ==>
      CanSubmit(files + NewEntries(incoming, ids, selectedActivity), selectedActivity, activityTitle)
  {
  }

  datatype FileIcon = ImageIcon | PdfIcon | GenericIcon

  /** `sub` occurs in `s` starting at position `i`. */
  predicate OccursAt(s: string, sub: string, i: int)
  {
    0 <= i <= |s| - |sub| && s[i..i + |sub|] == sub
  }

  /** `s.includes(sub)` */
  function Includes(s: string, sub: string): (r: bool)
    ensures r <==> exists i :: OccursAt(s, sub, i)
    decreases |s|
  {
    if |sub| > |s| then false
    else if s[..|sub|] == sub then assert OccursAt(s, sub, 0); true
    else
      OccursShift(s, sub);
      Includes(s[1..], sub)
  }

  /** An occurrence in the tail of `s` is an occurrence in `s` one position further on. */
  lemma OccursShift(s: string, sub: string)
    requires s != []
    ensures forall i :: OccursAt(s[1..], sub, i) ==> OccursAt(s, sub, i + 1)
    ensures forall i :: OccursAt(s, sub, i) && i > 0 ==> OccursAt(s[1..], sub, i - 1)
  {
    forall i | OccursAt(s[1..], sub, i)
      ensures OccursAt(s, sub, i + 1)
    {
      assert s[1..][i..i + |sub|] == s[i + 1..i + 1 + |sub|];
    }
    forall i | OccursAt(s, sub, i) && i > 0
      ensures OccursAt(s[1..], sub, i - 1)
    {
      assert s[1..][i - 1..i - 1 + |sub|] == s[i..i + |sub|];
    }
  }

  /** `getFileIcon`: the image icon for a type starting with "image/", which is
      checked first; the PDF icon for any other type containing "pdf"; the
      generic file icon otherwise. */
  function FileIconFor(fileType: string): (icon: FileIcon)
    ensures icon == ImageIcon <==> "image/" <= fileType
    ensures icon == PdfIcon <==> !("image/" <= fileType) && exists i :: OccursAt(fileType, "pdf", i)
  {
    if "image/" <= fileType then ImageIcon
    else if Includes(fileType, "pdf") then PdfIcon
    else GenericIcon
  }

  /** The prefix test comes first: an image type that mentions "pdf" still gets the image icon. */
  lemma ImageTestComesFirst()
    ensures FileIconFor("image/pdf") == ImageIcon
    ensures FileIconFor("application/pdf") == PdfIcon
  {
    assert "application/pdf"[0] != "image/"[0];
    assert OccursAt("application/pdf", "pdf", 12);
  }

  // ---------------------------------------------------------------------------
  // The widget's state

  class FileUploadForm {
    var files: seq<UploadedFile>
    var selectedActivity: string
    var activityTitle: string

    predicate Valid()
      reads this
    {
      AllWellFormed(files)
    }

    constructor ()
      ensures Valid() && files == [] && selectedActivity == "" && activityTitle == ""
    {
      files := [];
      selectedActivity := "";
      activityTitle := "";
    }

    function SubmitEnabled(): bool
      reads this
    {
      CanSubmit(files, selectedActivity, activityTitle)
    }

    /** `onValueChange` of the category selector. */
    method SelectActivity(category: string)
      modifies this`selectedActivity
      ensures selectedActivity == category
    {
      selectedActivity := category;
    }

    /** `onChange` of the title input. */
    method SetActivityTitle(title: string)
      modifies this`activityTitle
      ensures activityTitle == title
    {
      activityTitle := title;
    }

    /** `handleFiles`: the new entries are appended after the existing ones. */
    method HandleFiles(incoming: seq<IncomingFile>, ids: seq<string>)
      requires Valid() && |ids| == |incoming|
      modifies this`files
      ensures Valid()
      ensures files == old(files) + NewEntries(incoming, ids, selectedActivity)
      ensures |files| == |old(files)| + |incoming| && files[..|old(files)|] == old(files)
    {
      NewEntriesFresh(incoming, ids, selectedActivity);
      files := files + NewEntries(incoming, ids, selectedActivity);
    }

    /** One interval tick of `simulateUpload(fileId)`. */
    method Tick(fileId: string, increments: seq<real>)
      requires Valid() && Draws(increments, files)
      modifies this`files
      ensures Valid()
      ensures files == Ticked(old(files), fileId, increments)
    {
      TickTouchesOnlyId(files, fileId, increments);
      files := Ticked(files, fileId, increments);
    }

    /** The timeout that ends `simulateUpload(fileId)`. */
    method Finalise(fileId: string)
      requires Valid()
      modifies this`files
      ensures Valid()
      ensures files == Finalised(old(files), fileId)
    {
      FinaliseTouchesOnlyId(files, fileId);
      files := Finalised(files, fileId);
    }

    /** `removeFile` */
    method RemoveFile(fileId: string)
      requires Valid()
      modifies this`files
      ensures Valid()
      ensures files == Removed(old(files), fileId)
    {
      files := Removed(files, fileId);
      assert forall i :: 0 <= i < |files| ==> files[i] in old(files);
    }

    /** The Clear All button. */
    method ClearAll()
      modifies this`files
      ensures Valid() && files == [] && !SubmitEnabled()
    {
      files := [];
    }
  }
}

=== FILE: github_heatmap.dfy ===
/** The contribution-style heatmap of the student dashboard: the activity
    level derived from a day's count, the colour of a level, and the grouping
    of the days into week columns that close after each Saturday. */
module GitHubHeatmap {
  import opened Common

  /** One day of heatmap data (`HeatmapData`). */
  datatype HeatmapData = HeatmapData(date: string, count: int, level: int)

  /** The filler cell pushed before the first day and after the last day of a week. */
  const Placeholder := HeatmapData("", 0, 0)

  // ---------------------------------------------------------------------------
  // Activity level and colour

  /** The level the mock-data generator gives a day with `count` classes:
      `count === 0 ? 0 : Math.min(Math.floor(count / 1) + 1, 4)`. The
      generator only draws counts 0..4, so the count is a natural number. */
  function MockLevel(count: nat): (level: int)
    ensures level == 0 <==> count == 0
    ensures 0 <= level <= 4
    ensures level != 1
  {
    if count == 0 then 0
    else if count / 1 + 1 < 4 then count / 1 + 1 else 4
  }

  /** More classes never give a lower level. */
  lemma MockLevelMonotone(a: nat, b: nat)
    requires a <= b
    ensures MockLevel(a) <= MockLevel(b)
  {
  }

  datatype Shade = Gray | Green200 | Green300 | Green500 | Green700

  /** The level a shade stands for in the legend. */
  function ShadeLevel(c: Shade): nat
  {
    match c
    case Gray => 0
    case Green200 => 1
    case Green300 => 2
    case Green500 => 3
    case Green700 => 4
  }

  /** `getLevelColor`: levels 0 to 4 each have their own shade; every other
      level falls to the default, which is the level-0 shade. */
  function LevelColor(level: int): (c: Shade)
    ensures 0 <= level <= 4 ==> ShadeLevel(c) == level
    ensures !(0 <= level <= 4) ==> c == Gray
  {
    match level
    case 0 => Gray
    case 1 => Green200
    case 2 => Green300
    case 3 => Green500
    case 4 => Green700
    case _ => Gray
  }

  /** The shade of level 1 is never drawn for generated data, since the generator never produces level 1. */
  lemma GeneratedDaysNeverLevelOneShade(count: nat)
    ensures LevelColor(MockLevel(count)) != Green200
  {
  }

  // ---------------------------------------------------------------------------
  // Week grouping

  function Placeholders(k: nat): seq<HeatmapData>
  {
    seq(k, _ => Placeholder)
  }

  /** `while (currentWeek.length < 7) currentWeek.push(placeholder)` */
  function PadWeek(cells: seq<HeatmapData>): (week: seq<HeatmapData>)
    ensures |week| == if |cells| < 7 then 7 else |cells|
    ensures week[..|cells|] == cells
    ensures forall j :: |cells| <= j < |week| ==> week[j] == Placeholder
  {
    if |cells| < 7 then cells + Placeholders(7 - |cells|) else cells
  }

  /** The placeholders that open week `k`: one per weekday before the first
      day for the first week, none for the others. */
  function Lead(days: seq<HeatmapData>, weekdayOf: string -> Weekday, k: nat): seq<HeatmapData>
  {
    if k == 0 && days != [] then Placeholders(weekdayOf(days[0].date)) else []
  }

  /** The days cut after every Saturday: the runs closed so far and the open run. */
  datatype Split = Split(closed: seq<seq<HeatmapData>>, open: seq<HeatmapData>)

  function SplitAfterSaturdays(days: seq<HeatmapData>, weekdayOf: string -> Weekday): Split
  {
    if days == [] then Split([], [])
    else
      var s := SplitAfterSaturdays(days[..|days| - 1], weekdayOf);
      var day := days[|days| - 1];
      if weekdayOf(day.date) == 6 then Split(s.closed + [s.open + [day]], [])
      else Split(s.closed, s.open + [day])
  }

  /** The runs of consecutive input days that make up the weeks: each run ends
      with a Saturday or with the last day. */
  function Runs(days: seq<HeatmapData>, weekdayOf: string -> Weekday): seq<seq<HeatmapData>>
  {
    var s := SplitAfterSaturdays(days, weekdayOf);
    if s.open == [] then s.closed else s.closed + [s.open]
  }

  /** Week `k` of the grid built from `runs`. */
  predicate WeeksFrom(weeks: seq<seq<HeatmapData>>, days: seq<HeatmapData>,
                      weekdayOf: string -> Weekday, runs: seq<seq<HeatmapData>>)
  {
    |weeks| == |runs| &&
    forall k :: 0 <= k < |weeks| ==> weeks[k] == PadWeek(Lead(days, weekdayOf, k) + runs[k])
  }

  /** `groupByWeeks` (lines 76-103). `weekdayOf` stands for
      `new Date(date).getDay()`. Each day is pushed onto the current week;
      before the first day, one placeholder per weekday before it is pushed;
      after a Saturday or after the last day, the week is padded with
      placeholders up to seven cells and closed. */
  method GroupByWeeks(heatmapData: seq<HeatmapData>, weekdayOf: string -> Weekday)
    returns (weeks: seq<seq<HeatmapData>>)
    ensures |weeks| == |Runs(heatmapData, weekdayOf)|
    ensures forall k :: 0 <= k < |weeks| ==>
      weeks[k] == PadWeek(Lead(heatmapData, weekdayOf, k) + Runs(heatmapData, weekdayOf)[k])
  {
    var n := |heatmapData|;
    weeks := [];
    var currentWeek: seq<HeatmapData> := [];
    var index := 0;
    while index < n
      invariant 0 <= index <= n
      invariant index < n ==>
        var s := SplitAfterSaturdays(heatmapData[..index], weekdayOf);
        WeeksFrom(weeks, heatmapData, weekdayOf, s.closed) &&
        currentWeek == if index == 0 then [] else Lead(heatmapData, weekdayOf, |s.closed|) + s.open
      invariant index == n ==> WeeksFrom(weeks, heatmapData, weekdayOf, Runs(heatmapData, weekdayOf))
    {
      var day := heatmapData[index];
      var dayOfWeek := weekdayOf(day.date);
      ghost var s := SplitAfterSaturdays(heatmapData[..index], weekdayOf);
      ghost var lead := Lead(heatmapData, weekdayOf, |s.closed|);
      SplitStep(heatmapData, weekdayOf, index);
      if index == 0 {
        var i := 0;
        while i < dayOfWeek
          invariant 0 <= i <= dayOfWeek
          invariant currentWeek == Placeholders(i)
        {
          currentWeek := currentWeek + [Placeholder];
          i := i + 1;
        }
        assert currentWeek == lead + s.open;
      }
      currentWeek := currentWeek + [day];
      assert currentWeek == lead + (s.open + [day]);
      if dayOfWeek == 6 || index == n - 1 {
        ghost var full := PadWeek(currentWeek);
        while |currentWeek| < 7
          invariant |currentWeek| <= |full|
          invariant currentWeek == full[..|currentWeek|]
        {
          assert full[..|currentWeek| + 1] == full[..|currentWeek|] + [Placeholder];
          currentWeek := currentWeek + [Placeholder];
        }
        assert currentWeek == full;
        WeeksFromExtend(weeks, heatmapData, weekdayOf, s.closed, s.open + [day]);
        weeks := weeks + [currentWeek];
        currentWeek := [];
      }
      index := index + 1;
    }
  }

  /** One step of the cut: the split of the first `i + 1` days from the split of the first `i`. */
  lemma SplitStep(days: seq<HeatmapData>, weekdayOf: string -> Weekday, i: nat)
    requires i < |days|
    ensures var s, day := SplitAfterSaturdays(days[..i], weekdayOf), days[i];
      SplitAfterSaturdays(days[..i + 1], weekdayOf) ==
        if weekdayOf(day.date) == 6 then Split(s.closed + [s.open + [day]], [])
        else Split(s.closed, s.open + [day])
    ensures i + 1 == |days| ==> days[..i + 1] == days
  {
    assert days[..i + 1][..i] == days[..i];
  }

  /** Closing one more week extends the grid by the padded run. */
  lemma WeeksFromExtend(weeks: seq<seq<HeatmapData>>, days: seq<HeatmapData>, weekdayOf: string -> Weekday,
                        runs: seq<seq<HeatmapData>>, run: seq<HeatmapData>)
    requires WeeksFrom(weeks, days, weekdayOf, runs)
    ensures WeeksFrom(weeks + [PadWeek(Lead(days, weekdayOf, |runs|) + run)], days, weekdayOf, runs + [run])
  {
  }

  // ---------------------------------------------------------------------------
  // Properties of the runs

  function Last(run: seq<HeatmapData>): HeatmapData
    requires run != []
  {
    run[|run| - 1]
  }

  /** A closed run: non-empty, ending with a Saturday, and with no Saturday before its end. */
  predicate EndsWithOnlySaturday(run: seq<HeatmapData>, weekdayOf: string -> Weekday)
  {
    run != [] && weekdayOf(Last(run).date) == 6 && NoSaturdayBefore(run, |run| - 1, weekdayOf)
  }

  /** No day among the first `m` of `run` is a Saturday. */
  predicate NoSaturdayBefore(run: seq<HeatmapData>, m: int, weekdayOf: string -> Weekday)
  {
    forall j :: 0 <= j < m && j < |run| ==> weekdayOf(run[j].date) != 6
  }

  /** Cutting after Saturdays loses no day and reorders none. */
  lemma {:induction false} SplitConcat(days: seq<HeatmapData>, weekdayOf: string -> Weekday)
    ensures var s := SplitAfterSaturdays(days, weekdayOf);
      Concat(s.closed) + s.open == days
  {
    if days != [] {
      var init := days[..|days| - 1];
      var day := days[|days| - 1];
      SplitConcat(init, weekdayOf);
      var s := SplitAfterSaturdays(init, weekdayOf);
      assert init + [day] == days;
      if weekdayOf(day.date) == 6 {
        ConcatAppend(s.closed, s.open + [day]);
      }
    }
  }

  /** Every closed run ends with its only Saturday; the open run holds no Saturday. */
  lemma {:induction false} SplitSaturdays(days: seq<HeatmapData>, weekdayOf: string -> Weekday)
    ensures var s := SplitAfterSaturdays(days, weekdayOf);
      (forall k :: 0 <= k < |s.closed| ==> EndsWithOnlySaturday(s.closed[k], weekdayOf)) &&
      NoSaturdayBefore(s.open, |s.open|, weekdayOf)
  {
    if days != [] {
      var init := days[..|days| - 1];
      var day := days[|days| - 1];
      SplitSaturdays(init, weekdayOf);
      var s := SplitAfterSaturdays(init, weekdayOf);
      if weekdayOf(day.date) == 6 {
        var run := s.open + [day];
        assert forall j :: 0 <= j < |run| - 1 ==> run[j] == s.open[j];
        assert EndsWithOnlySaturday(run, weekdayOf);
      } else {
        var run := s.open + [day];
        assert forall j :: 0 <= j < |run| - 1 ==> run[j] == s.open[j];
      }
    }
  }

  /** The runs cover the input: concatenated, they give back the days in order;
      no run is empty. */
  lemma RunsCoverDays(days: seq<HeatmapData>, weekdayOf: string -> Weekday)
    ensures Concat(Runs(days, weekdayOf)) == days
    ensures forall k :: 0 <= k < |Runs(days, weekdayOf)| ==> Runs(days, weekdayOf)[k] != []
  {
    SplitConcat(days, weekdayOf);
    SplitSaturdays(days, weekdayOf);
    var s := SplitAfterSaturdays(days, weekdayOf);
    if s.open != [] {
      ConcatAppend(s.closed, s.open);
    }
  }

  /** A week is closed right after a Saturday or after the last day, and at no
      other point: every run but the last ends with a Saturday, and no run
      holds a Saturday before its end. */
  lemma RunsBreakAfterSaturdays(days: seq<HeatmapData>, weekdayOf: string -> Weekday)
    ensures var runs := Runs(days, weekdayOf);
      (forall k :: 0 <= k < |runs| - 1 ==> EndsWithOnlySaturday(runs[k], weekdayOf)) &&
      (forall k :: 0 <= k < |runs| ==> NoSaturdayBefore(runs[k], |runs[k]| - 1, weekdayOf))
  {
    SplitSaturdays(days, weekdayOf);
  }

  /** Empty input gives no week. */
  lemma NoDaysNoWeeks(weekdayOf: string -> Weekday)
    ensures Runs([], weekdayOf) == []
  {
  }

  // ---------------------------------------------------------------------------
  // Properties of the weeks

  /** Padding only appends placeholders: a padded week keeps its cells in
      front and has at least seven cells. */
  lemma PadWeekKeepsCells(cells: seq<HeatmapData>)
    ensures |PadWeek(cells)| >= 7
    ensures PadWeek(cells)[..|cells|] == cells
    ensures forall j :: |cells| <= j < |PadWeek(cells)| ==> PadWeek(cells)[j] == Placeholder
  {
  }

  /** The first week opens with one placeholder (date "", count 0, level 0)
      per weekday before the first day, followed by the first day. */
  lemma FirstWeekLead(weeks: seq<seq<HeatmapData>>, days: seq<HeatmapData>, weekdayOf: string -> Weekday)
    requires days != []
    requires WeeksFrom(weeks, days, weekdayOf, Runs(days, weekdayOf))
    ensures var d := weekdayOf(days[0].date);
      |weeks| > 0 && |weeks[0]| > d &&
      (forall j :: 0 <= j < d ==> weeks[0][j] == HeatmapData("", 0, 0)) &&
      weeks[0][d] == days[0]
  {
    var runs := Runs(days, weekdayOf);
    var d := weekdayOf(days[0].date);
    RunsCoverDays(days, weekdayOf);
    assert runs != [];
    ConcatFront(runs);
    var first := runs[0];
    assert first != [];
    assert first[0] == days[0];
    var cells := Placeholders(d) + first;
    assert weeks[0] == PadWeek(cells);
    assert PadWeek(cells)[..|cells|] == cells;
    assert cells[d] == days[0];
  }

  function NotPlaceholder(c: HeatmapData): bool { c != Placeholder }

  lemma {:induction false} PlaceholdersFilterAway(k: nat)
    ensures Filter(Placeholders(k), NotPlaceholder) == []
  {
    FilterKeepsNone(Placeholders(k), NotPlaceholder);
  }

  /** Padding adds only placeholders, which the filter drops. */
  lemma PadWeekFiltersAway(cells: seq<HeatmapData>)
    ensures Filter(PadWeek(cells), NotPlaceholder) == Filter(cells, NotPlaceholder)
  {
    if |cells| < 7 {
      var pad := Placeholders(7 - |cells|);
      FilterAppend(cells, pad, NotPlaceholder);
      PlaceholdersFilterAway(7 - |cells|);
    }
  }

  /** A week filters down to the days of its run. */
  lemma WeekFiltersToRun(lead: nat, run: seq<HeatmapData>)
    ensures Filter(PadWeek(Placeholders(lead) + run), NotPlaceholder) == Filter(run, NotPlaceholder)
  {
    FilterAppend(Placeholders(lead), run, NotPlaceholder);
    PlaceholdersFilterAway(lead);
    PadWeekFiltersAway(Placeholders(lead) + run);
  }

  /** Removing the placeholders from the weeks and concatenating them gives
      back the input days in order, provided no input day is itself equal to
      the placeholder record (a real day has a non-empty date). */
  lemma {:induction false} WeeksStripToDays(weeks: seq<seq<HeatmapData>>, days: seq<HeatmapData>,
                                           weekdayOf: string -> Weekday)
    requires WeeksFrom(weeks, days, weekdayOf, Runs(days, weekdayOf))
    requires forall i :: 0 <= i < |days| ==> days[i] != Placeholder
    ensures Filter(Concat(weeks), NotPlaceholder) == days
  {
    var runs := Runs(days, weekdayOf);
    RunsCoverDays(days, weekdayOf);
    StripPrefix(weeks, days, weekdayOf, runs, |weeks|);
    assert weeks[..|weeks|] == weeks;
    assert runs[..|runs|] == runs;
    FilterKeepsAll(days, NotPlaceholder);
  }

  lemma {:induction false} StripPrefix(weeks: seq<seq<HeatmapData>>, days: seq<HeatmapData>,
                                      weekdayOf: string -> Weekday, runs: seq<seq<HeatmapData>>, m: nat)
    requires WeeksFrom(weeks, days, weekdayOf, runs)
    requires m <= |weeks|
    ensures Filter(Concat(weeks[..m]), NotPlaceholder) == Filter(Concat(runs[..m]), NotPlaceholder)
  {
    if m > 0 {
      StripPrefix(weeks, days, weekdayOf, runs, m - 1);
      assert weeks[..m][..m - 1] == weeks[..m - 1];
      assert runs[..m][..m - 1] == runs[..m - 1];
      var lead := Lead(days, weekdayOf, m - 1);
      assert lead == Placeholders(|lead|);
      assert weeks[m - 1] == PadWeek(Placeholders(|lead|) + runs[m - 1]);
      WeekFiltersToRun(|lead|, runs[m - 1]);
      FilterAppend(Concat(weeks[..m - 1]), weeks[m - 1], NotPlaceholder);
      FilterAppend(Concat(runs[..m - 1]), runs[m - 1], NotPlaceholder);
    }
  }

  // ---------------------------------------------------------------------------
  // Daily data

  /** Successive days fall on successive weekdays, as the daily generator produces them. */
  predicate DailySequence(days: seq<HeatmapData>, weekdayOf: string -> Weekday)
  {
    forall i :: 0 <= i < |days| - 1 ==> weekdayOf(days[i + 1].date) == (weekdayOf(days[i].date) + 1) % 7
  }

  /** The weekdays of a run go up by one from its first day. */
  predicate StepsByOne(run: seq<HeatmapData>, weekdayOf: string -> Weekday)
  {
    forall j :: 0 <= j < |run| ==> weekdayOf(run[j].date) == weekdayOf(run[0].date) + j
  }

  /** Run `k` cut from daily data: non-empty, its weekdays step by one, and the
      placeholders in front of it number as many as the weekday of its first day. */
  predicate RunShape(days: seq<HeatmapData>, weekdayOf: string -> Weekday, run: seq<HeatmapData>, k: nat)
  {
    run != [] && StepsByOne(run, weekdayOf) && |Lead(days, weekdayOf, k)| == weekdayOf(run[0].date)
  }

  /** Every closed run and the open run have the shape of daily data. */
  predicate DailyShape(days: seq<HeatmapData>, weekdayOf: string -> Weekday, s: Split)
  {
    (forall k :: 0 <= k < |s.closed| ==> RunShape(days, weekdayOf, s.closed[k], k)) &&
    (s.open != [] ==> RunShape(days, weekdayOf, s.open, |s.closed|))
  }

  /** The open run ends with the last day; it is empty exactly when the last
      day is a Saturday, and then some run has been closed. */
  lemma OpenRunEnd(days: seq<HeatmapData>, weekdayOf: string -> Weekday)
    requires days != []
    ensures var s := SplitAfterSaturdays(days, weekdayOf);
      (s.open == [] <==> weekdayOf(Last(days).date) == 6) &&
      (s.open == [] ==> |s.closed| > 0) &&
      (s.open != [] ==> Last(s.open) == Last(days))
  {
  }

  /** A run that stops before Saturday and steps by one still steps by one
      when the next day is appended. */
  lemma StepsByOneExtend(run: seq<HeatmapData>, x: HeatmapData, weekdayOf: string -> Weekday)
    requires run != [] && StepsByOne(run, weekdayOf)
    requires weekdayOf(Last(run).date) != 6
    requires weekdayOf(x.date) == (weekdayOf(Last(run).date) + 1) % 7
    ensures StepsByOne(run + [x], weekdayOf)
  {
    assert weekdayOf(Last(run).date) == weekdayOf(run[0].date) + |run| - 1;
    assert forall j :: 0 <= j < |run| ==> (run + [x])[j] == run[j];
  }

  /** Appending the next day of daily data keeps the shape of the runs. */
  lemma DailyStep(init: seq<HeatmapData>, x: HeatmapData, weekdayOf: string -> Weekday)
    requires DailyShape(init, weekdayOf, SplitAfterSaturdays(init, weekdayOf))
    requires init != [] ==> weekdayOf(x.date) == (weekdayOf(Last(init).date) + 1) % 7
    ensures DailyShape(init + [x], weekdayOf, SplitAfterSaturdays(init + [x], weekdayOf))
  {
    var days := init + [x];
    var s := SplitAfterSaturdays(init, weekdayOf);
    var run := s.open + [x];
    assert days[..|days| - 1] == init;
    NewRunShape(init, x, weekdayOf);
    ClosedRunsCarry(init, x, weekdayOf);
    DailyShapeExtend(days, weekdayOf, s.closed, run);
    if weekdayOf(x.date) == 6 {
      assert SplitAfterSaturdays(days, weekdayOf) == Split(s.closed + [run], []);
    } else {
      assert SplitAfterSaturdays(days, weekdayOf) == Split(s.closed, run);
    }
  }

  /** The closed runs keep their shape when a day is appended. */
  lemma ClosedRunsCarry(init: seq<HeatmapData>, x: HeatmapData, weekdayOf: string -> Weekday)
    requires DailyShape(init, weekdayOf, SplitAfterSaturdays(init, weekdayOf))
    ensures var s := SplitAfterSaturdays(init, weekdayOf);
      forall k :: 0 <= k < |s.closed| ==> RunShape(init + [x], weekdayOf, s.closed[k], k)
  {
    var s := SplitAfterSaturdays(init, weekdayOf);
    if init != [] {
      forall k | 0 <= k < |s.closed|
        ensures RunShape(init + [x], weekdayOf, s.closed[k], k)
      {
        assert (init + [x])[0] == init[0];
        assert Lead(init + [x], weekdayOf, k) == Lead(init, weekdayOf, k);
      }
    }
  }

  /** Runs of daily shape, with one more of daily shape either closed or left open. */
  lemma DailyShapeExtend(days: seq<HeatmapData>, weekdayOf: string -> Weekday,
                         closed: seq<seq<HeatmapData>>, run: seq<HeatmapData>)
    requires forall k :: 0 <= k < |closed| ==> RunShape(days, weekdayOf, closed[k], k)
    requires RunShape(days, weekdayOf, run, |closed|)
    ensures DailyShape(days, weekdayOf, Split(closed + [run], []))
    ensures DailyShape(days, weekdayOf, Split(closed, run))
  {
    forall k | 0 <= k < |closed + [run]|
      ensures RunShape(days, weekdayOf, (closed + [run])[k], k)
    {
      if k < |closed| {
        assert (closed + [run])[k] == closed[k];
      }
    }
  }

  /** The run that the next day of daily data extends or opens has the shape of daily data. */
  lemma NewRunShape(init: seq<HeatmapData>, x: HeatmapData, weekdayOf: string -> Weekday)
    requires DailyShape(init, weekdayOf, SplitAfterSaturdays(init, weekdayOf))
    requires init != [] ==> weekdayOf(x.date) == (weekdayOf(Last(init).date) + 1) % 7
    ensures var s := SplitAfterSaturdays(init, weekdayOf);
      RunShape(init + [x], weekdayOf, s.open + [x], |s.closed|)
  {
    var s := SplitAfterSaturdays(init, weekdayOf);
    if init == [] {
      assert s.open + [x] == [x] && init + [x] == [x];
      assert StepsByOne([x], weekdayOf);
    } else if s.open != [] {
      ExtendOpenRun(init, x, weekdayOf);
    } else {
      OpenAfterSaturday(init, x, weekdayOf);
    }
  }

  /** A day after a non-Saturday extends the open run. */
  lemma ExtendOpenRun(init: seq<HeatmapData>, x: HeatmapData, weekdayOf: string -> Weekday)
    requires DailyShape(init, weekdayOf, SplitAfterSaturdays(init, weekdayOf))
    requires init != [] && SplitAfterSaturdays(init, weekdayOf).open != []
    requires weekdayOf(x.date) == (weekdayOf(Last(init).date) + 1) % 7
    ensures var s := SplitAfterSaturdays(init, weekdayOf);
      RunShape(init + [x], weekdayOf, s.open + [x], |s.closed|)
  {
    var s := SplitAfterSaturdays(init, weekdayOf);
    OpenRunEnd(init, weekdayOf);
    StepsByOneExtend(s.open, x, weekdayOf);
    assert (init + [x])[0] == init[0];
    assert Lead(init + [x], weekdayOf, |s.closed|) == Lead(init, weekdayOf, |s.closed|);
    assert (s.open + [x])[0] == s.open[0];
  }

  /** A day after a Saturday opens a new run on Sunday, with no placeholder in front. */
  lemma OpenAfterSaturday(init: seq<HeatmapData>, x: HeatmapData, weekdayOf: string -> Weekday)
    requires init != [] && SplitAfterSaturdays(init, weekdayOf).open == []
    requires weekdayOf(x.date) == (weekdayOf(Last(init).date) + 1) % 7
    ensures var s := SplitAfterSaturdays(init, weekdayOf);
      RunShape(init + [x], weekdayOf, s.open + [x], |s.closed|)
  {
    var s := SplitAfterSaturdays(init, weekdayOf);
    OpenRunEnd(init, weekdayOf);
    assert weekdayOf(x.date) == 0;
    assert Lead(init + [x], weekdayOf, |s.closed|) == [];
    assert s.open + [x] == [x];
    assert StepsByOne([x], weekdayOf);
  }

  /** For daily data, every run steps its weekdays by one, and the placeholders
      in front of it number as many as the weekday of its first day. */
  lemma {:induction false} DailySplit(days: seq<HeatmapData>, weekdayOf: string -> Weekday)
    requires DailySequence(days, weekdayOf)
    ensures DailyShape(days, weekdayOf, SplitAfterSaturdays(days, weekdayOf))
  {
    if days != [] {
      var init := days[..|days| - 1];
      var x := days[|days| - 1];
      assert forall i :: 0 <= i < |init| ==> init[i] == days[i];
      assert DailySequence(init, weekdayOf);
      DailySplit(init, weekdayOf);
      DailyStep(init, x, weekdayOf);
      assert init + [x] == days;
    }
  }

  /** When successive days fall on successive weekdays, every week has exactly seven cells. */
  lemma DailyWeeksHaveSevenCells(weeks: seq<seq<HeatmapData>>, days: seq<HeatmapData>,
                                 weekdayOf: string -> Weekday)
    requires DailySequence(days, weekdayOf)
    requires WeeksFrom(weeks, days, weekdayOf, Runs(days, weekdayOf))
    ensures forall k :: 0 <= k < |weeks| ==> |weeks[k]| == 7
  {
    DailySplit(days, weekdayOf);
    var runs := Runs(days, weekdayOf);
    forall k | 0 <= k < |weeks|
      ensures |weeks[k]| == 7
    {
      var run := runs[k];
      assert run != [] && StepsByOne(run, weekdayOf) && |Lead(days, weekdayOf, k)| == weekdayOf(run[0].date);
      assert weekdayOf(run[|run| - 1].date) == weekdayOf(run[0].date) + |run| - 1;
    }
  }
}

=== FILE: institution_admin_dashboard.dfy ===
/** The institution admin dashboard: the department table, filtered by the
    department selector; the campus and cohort selectors are shown but take no
    part in the filter. */
module InstitutionAdminDashboard {
  import opened Common

  /** A department row; `avgTAT` is the average turnaround time in days. */
  datatype Department = Department(department: string, students: int, participation: int,
                                   approvals: int, avgTAT: real)

  const MockDepartmentData: seq<Department> := [
    Department("Computer Science", 120, 85, 92, 2.1),
    Department("Electronics", 95, 78, 88, 2.4),
    Department("Mechanical", 110, 72, 85, 2.8),
    Department("Civil", 85, 80, 90, 2.2)
  ]

  /** The dashboard's selectors. */
  datatype AdminSelection = AdminSelection(campus: string, department: string, cohort: string)

  const InitialSelection := AdminSelection("all", "all", "2024")

  function DepartmentMatches(department: string): Department -> bool
  {
    (d: Department) => department == "all" || d.department == department
  }

  /** `filteredDepartments` for the current selection. */
  function FilteredDepartments(departments: seq<Department>, selection: AdminSelection): (r: seq<Department>)
    ensures |r| <= |departments|
    ensures forall d :: d in r ==>
      d in departments && (selection.department == "all" || d.department == selection.department)
  {
    Filter(departments, DepartmentMatches(selection.department))
  }

  /** The department "all" lists every department, whatever the campus and cohort. */
  lemma AllDepartmentsListEverything(departments: seq<Department>, campus: string, cohort: string)
    ensures FilteredDepartments(departments, AdminSelection(campus, "all", cohort)) == departments
  {
    FilterKeepsAll(departments, DepartmentMatches("all"));
  }

  /** On the page as it opens, all four departments are shown. */
  lemma InitialSelectionShowsAll()
    ensures FilteredDepartments(MockDepartmentData, InitialSelection) == MockDepartmentData
  {
    AllDepartmentsListEverything(MockDepartmentData, "all", "2024");
  }

  /** Otherwise exactly the rows named like the selection are kept: each is an
      unmodified row of the table, every such row is kept as often as it occurs,
      and the table's order is kept. */
  lemma FilterKeepsExactlyMatches(departments: seq<Department>, selection: AdminSelection, d: Department)
    requires selection.department != "all"
    ensures var r := FilteredDepartments(departments, selection);
      IsSubsequence(r, departments) &&
      (d in r ==> d in departments && d.department == selection.department) &&
      (d.department == selection.department ==> multiset(r)[d] == multiset(departments)[d])
  {
    FilterIsSubsequence(departments, DepartmentMatches(selection.department));
    FilterCounts(departments, DepartmentMatches(selection.department), d);
  }

  /** The campus and cohort selectors do not change the listing. */
  lemma CampusAndCohortIgnored(departments: seq<Department>, s: AdminSelection, t: AdminSelection)
    requires s.department == t.department
    ensures FilteredDepartments(departments, s) == FilteredDepartments(departments, t)
  {
  }

  /** Selecting "Mechanical" on the dashboard's data shows only its row. */
  lemma MechanicalListing()
    ensures FilteredDepartments(MockDepartmentData, AdminSelection("all", "Mechanical", "2024")) == [MockDepartmentData[2]]
  {
    var keep := DepartmentMatches("Mechanical");
    var m := MockDepartmentData;
    assert m[1..][1..][1..][1..] == [];
    assert "Civil"[0] != "Mechanical"[0];
    assert Filter(m[3..], keep) == [];
    assert Filter(m[2..], keep) == [m[2]];
  }
}

=== FILE: student_dashboard.dfy ===
/** The student dashboard: the category/status filter over the student's
    activities, and the colour and icon of an activity status. */
module StudentDashboard {
  import opened Common

  datatype Activity = Activity(id: int, category: string, title: string, hours: int,
                               status: string, verifier: string, lastUpdated: string)

  // ---------------------------------------------------------------------------
  // filteredActivities

  /** The category is compared exactly; for the status only the activity's
      side is lower-cased before the comparison. */
  function ActivityMatches(category: string, status: string): Activity -> bool
  {
    (a: Activity) => (category == "all" || a.category == category) &&
                     (status == "all" || ToLower(a.status) == status)
  }

  /** `filteredActivities` for the selected category and status. */
  function FilteredActivities(activities: seq<Activity>, category: string, status: string): (r: seq<Activity>)
    ensures |r| <= |activities|
    ensures forall a :: a in r ==>
      a in activities && (category == "all" || a.category == category) && (status == "all" || ToLower(a.status) == status)
  {
    Filter(activities, ActivityMatches(category, status))
  }

  /** With both selectors on "all", every activity is listed. */
  lemma AllSelectorsListEverything(activities: seq<Activity>)
    ensures FilteredActivities(activities, "all", "all") == activities
  {
    FilterKeepsAll(activities, ActivityMatches("all", "all"));
  }

  /** The listing keeps the original order, contains every matching activity as
      often as it occurs, and only activities of the selected category whose
      lower-cased status is the selected status. */
  lemma FilterKeepsExactlyMatches(activities: seq<Activity>, category: string, status: string, a: Activity)
    ensures var r := FilteredActivities(activities, category, status);
      IsSubsequence(r, activities) &&
      (a in r ==> (category != "all" ==> a.category == category) && (status != "all" ==> ToLower(a.status) == status)) &&
      ((category == "all" || a.category == category) && (status == "all" || ToLower(a.status) == status) ==>
         multiset(r)[a] == multiset(activities)[a])
  {
    FilterIsSubsequence(activities, ActivityMatches(category, status));
    FilterCounts(activities, ActivityMatches(category, status), a);
  }

  /** A capitalised status such as "Approved" is listed under the selector "approved". */
  lemma CapitalisedStatusMatchesLowerSelector(activities: seq<Activity>, a: Activity)
    requires a in activities && a.status == "Approved"
    ensures a in FilteredActivities(activities, "all", "approved")
  {
    assert ToLower("Approved") == "approved";
    FilterCounts(activities, ActivityMatches("all", "approved"), a);
  }

  /** A status selector other than "all" that holds an upper-case letter
      lists nothing, since only the activity's side is lower-cased. */
  lemma UpperCaseSelectorListsNothing(activities: seq<Activity>, category: string, status: string, k: nat)
    requires status != "all" && k < |status| && IsUpper(status[k])
    ensures FilteredActivities(activities, category, status) == []
  {
    forall i | 0 <= i < |activities|
      ensures !ActivityMatches(category, status)(activities[i])
    {
      ToLowerHasNoUpper(activities[i].status);
    }
    FilterKeepsNone(activities, ActivityMatches(category, status));
  }

  // ---------------------------------------------------------------------------
  // Status colour and icon

  /** `getStatusColor`: approved, pending, draft and rejected by their
      lower-cased form; "draft" gets the same gray as the default. */
  function StatusColorOf(status: string): (c: StatusColor)
    ensures c == GrayBadge <==> ToLower(status) !in {"approved", "pending", "rejected"}
  {
    match ToLower(status)
    case "approved" => GreenBadge
    case "pending" => YellowBadge
    case "draft" => GrayBadge
    case "rejected" => RedBadge
    case _ => GrayBadge
  }

  /** The status colour ignores case. */
  lemma StatusColorIgnoresCase(status: string)
    ensures StatusColorOf(status) == StatusColorOf(ToLower(status))
  {
    ToLowerIdempotent(status);
  }

  datatype StatusIcon = CheckCircleIcon | ClockIcon | EditIcon | XCircleIcon | AlertCircleIcon

  /** `getStatusIcon`: a case-insensitive switch whose default is the alert icon. */
  function StatusIconOf(status: string): (icon: StatusIcon)
    ensures icon == AlertCircleIcon <==> ToLower(status) !in {"approved", "pending", "draft", "rejected"}
  {
    match ToLower(status)
    case "approved" => CheckCircleIcon
    case "pending" => ClockIcon
    case "draft" => EditIcon
    case "rejected" => XCircleIcon
    case _ => AlertCircleIcon
  }

  /** The status icon ignores case. */
  lemma StatusIconIgnoresCase(status: string)
    ensures StatusIconOf(status) == StatusIconOf(ToLower(status))
  {
    ToLowerIdempotent(status);
  }

  /** The dashboard's own statuses are capitalised, and each gets its own icon. */
  lemma MockStatusesHaveIcons()
    ensures StatusIconOf("Approved") == CheckCircleIcon
    ensures StatusIconOf("Pending") == ClockIcon
    ensures StatusIconOf("Draft") == EditIcon
    ensures StatusIconOf("Rejected") == XCircleIcon
  {
    assert ToLower("Approved") == "approved";
    assert ToLower("Pending") == "pending";
    assert ToLower("Draft") == "draft";
    assert ToLower("Rejected") == "rejected";
  }
}
